=== FILE: README.md ===
# IMU motion pipeline, ellipsoid calibration and AVR pin macros in Dafny

This project models three pure parts of the embedded-systems labs repository and proves properties about them.

1. **The inertial pipeline of `assignment-1-imu/position.py`.** It works on a table of timestamped accelerometer readings. The steps are:
   - scaling (`preprocess_data`);
   - affine calibration `T·(a − bias)`, with the g ↔ m/s² round trip (`apply_calibration`);
   - gravity removal: each reading loses its component along the normalised mean of the first ten readings (`remove_gravity`);
   - stationary detection by rolling variance of the acceleration magnitude (`detect_stationary_periods`);
   - trapezoidal double integration into velocity and position, with an optional zero-velocity update (ZUPT): the velocity of a sample flagged stationary is reset to zero (`calculate_position`, `calculate_position_with_zupt`);
   - the drift metrics (`calculate_drift`) and the `improvement` entry of `save_results`.
2. **The algebra of the ellipsoid calibration in `assignment-1-imu/calculate_params.py`.** This covers:
   - the design matrix of the least-squares quadric fit;
   - the homogeneous 4×4 quadric matrix;
   - the centre equation;
   - the translation and normalisation that produce the matrix given to the eigen-solver;
   - the transform that `calibrate_accelerometer` builds from the fitted centre, radii and eigenvectors, and the calibration record it returns.
3. **The single-bit register macros of `lab1-io/pin_macros.h`**, as functions on `bv8`.

Modules, one file each:
- `LinAlg`: 3- and 4-vectors and matrices, norms, `Magnitudes`.
- `Wrappers`: `Option`.
- `Stats`: sum, mean, pandas `var`, numpy `var`/`std`.
- `Samples`: the table.
- `EllipsoidFit`.
- `Calibration`.
- `Preprocessing`: scaling, calibration, gravity removal.
- `Stationary`.
- `Integration`.
- `Drift`.
- `PinMacros`.

Modelling choices:
- Floating-point columns are Dafny `real`.
- The square root is a parameter `sqrt: real -> real`. Where a property needs it to be the square root at a point, the lemma requires `IsSqrtOf(sqrt, x)`: `sqrt(x)` is non-negative and squares to `x`.
- The module-level flags `UNITS_IN_MPS2` and `APPLY_ZUPT` are parameters, as are `ACC_THRESHOLD` and `WINDOW_SIZE`.
- The least-squares, linear-solve and eigen-solver calls are not modelled. The fitted coefficients `u`, the centre, radii, eigenvalues and eigenvectors enter as parameters. The relations the solvers guarantee are preconditions:
  - `IsCenter` for `np.linalg.solve`;
  - `Recompose(evecs, evals) == …` for `np.linalg.eig`. This relation holds only for orthonormal eigenvectors. `np.linalg.eigh` always returns such eigenvectors; `np.linalg.eig` returns unit eigenvectors, which are orthogonal for a symmetric matrix only when its eigenvalues are distinct (`Calibration.SkewEigenbasis`);
  - `RadiiOf` for `radii = 1/sqrt(evals)`.

Behaviour of the code worth knowing:
- The integrator takes velocity and position from rest at the first sample. x-accelerations 0, 2, 0 at t = 0, 1, 2 give velocities 0, 1, 2 and positions 0, 0.5, 2.0 (`Integration.WorkedExample`).
- Line 49 of `calculate_params.py` computes `T·A·Tᵀ` (see Findings).
- Nothing guards `dt`, an empty table, a zero gravity magnitude or a zero known distance.

## Model

| member | source | states |
|---|---|---|
| PinMacros.Read | lab1-io/pin_macros.h:7 | `PIN_READ` yields 0 or 1, and yields 1 exactly when bit `PIN` of the register is set (the bit reference `Bit` is written independently of the macros) |
| PinMacros.Set | lab1-io/pin_macros.h:4 | after `PIN_SET` bit `PIN` is set and every other bit is as before |
| PinMacros.Unset | lab1-io/pin_macros.h:5 | after `PIN_UNSET` bit `PIN` is clear and every other bit is as before |
| PinMacros.Toggle | lab1-io/pin_macros.h:6 | after `PIN_TOGGLE` bit `PIN` is flipped and every other bit is as before |
| PinMacros.BitsDetermineRegister | lab1-io/pin_macros.h:4-7 | two registers that agree on all eight bits are equal, so the per-bit contracts above determine each macro completely |
| PinMacros.ReadAfterWrite | lab1-io/pin_macros.h:4-7 | after SET the pin reads 1, after UNSET it reads 0, after TOGGLE it reads 1 minus what it read before |
| PinMacros.ToggleTwice | lab1-io/pin_macros.h:6 | toggling the same pin twice restores the register |
| PinMacros.SetUnsetLaws | lab1-io/pin_macros.h:4-5 | SET and UNSET are idempotent; UNSET after SET equals UNSET alone, SET after UNSET equals SET alone |
| Stats.SampleVariance | assignment-1-imu/position.py:168 | the `n − 1` variance pandas computes is never negative, and is 0 on a constant window |
| Stats.PopulationVariance | assignment-1-imu/calculate_params.py:108-111 | the `n`-denominator variance under numpy `std` is never negative, and is 0 on a constant series |
| Stats.ConstantSeries | assignment-1-imu/position.py:123 | a constant series sums to length × constant, has the constant as its mean and no squared deviation from it |
| Stats.MeanVec | assignment-1-imu/position.py:123 | the column-wise mean of identical readings is that reading |
| LinAlg.Magnitudes | assignment-1-imu/position.py:165 | one magnitude per vector, each the norm of its vector |
| LinAlg.MagnitudeIsRoot | assignment-1-imu/position.py:165 | where `sqrt` is the square root at the squared norm, the magnitude is non-negative and squares to the squared norm |
| LinAlg.NormZeroIffZero | assignment-1-imu/position.py:334 | with `sqrt` the square root, a vector's norm is zero exactly when the vector is the origin |
| Samples.MapAcc | assignment-1-imu/position.py:104-108 | rewriting the acceleration columns keeps the row count, the time and every other column of each row |
| Preprocessing.PreprocessData | assignment-1-imu/position.py:42-54 | one row per input row; each acceleration is multiplied by the factor, time and other columns unchanged |
| Preprocessing.PreprocessUnitFactor | assignment-1-imu/position.py:48 | a factor of exactly 1.0 returns the table unchanged |
| Preprocessing.PreprocessInverse | assignment-1-imu/position.py:48-52 | scaling by a nonzero `f` and then by `1/f` restores the table |
| Preprocessing.CalibrateReading | assignment-1-imu/position.py:92-102 | definition of one reading through the loop: `T·(a − bias)` in g; with m/s² input, converted to g, calibrated and converted back. Its closed forms are `CalibrationInMps2` and `CalibrationInGIsFitMap` |
| Preprocessing.UnitsRoundTrip | assignment-1-imu/position.py:92-102 | dividing by 9.81 and multiplying by 9.81 are inverse conversions, in both orders |
| Preprocessing.ApplyCalibration | assignment-1-imu/position.py:77-110 | without parameters the table comes back unchanged; with them each reading becomes the calibrated reading and time and other columns are kept |
| Preprocessing.CalibrationInMps2 | assignment-1-imu/position.py:92-102 | with m/s² input, `9.81·T·(a/9.81 − bias)` equals `T·(a − 9.81·bias)`: the round trip amounts to calibrating in m/s² with the bias converted |
| Preprocessing.CalibrationInGIsFitMap | assignment-1-imu/position.py:95-98 | in g a reading goes through the same map `T·(a − bias)` that `calibrate_accelerometer` applies to its fitting points |
| Preprocessing.IdentityCalibration | assignment-1-imu/position.py:95-102 | the identity transform with zero bias leaves every reading unchanged, in either unit |
| Preprocessing.InitialSamples | assignment-1-imu/position.py:122 | `iloc[:10]` is the first ten rows, or all rows when there are fewer, and is a prefix of the table |
| Preprocessing.UnitDirection | assignment-1-imu/position.py:126-129 | a vector divided by its nonzero length has squared length 1 |
| Preprocessing.GravityDirection | assignment-1-imu/position.py:123-129 | the mean of the initial readings divided by its magnitude is a unit vector wherever `sqrt` is the square root |
| Preprocessing.RemoveComponent | assignment-1-imu/position.py:140-143 | definition of one corrected reading, `a − (a·g)·g`; the three lemmas below state what it does |
| Preprocessing.RemoveComponentSplits | assignment-1-imu/position.py:140-143 | the corrected reading plus the subtracted gravity component gives back the reading |
| Preprocessing.RemoveComponentOrthogonal | assignment-1-imu/position.py:140-143 | after subtracting its component along a unit direction, a reading is orthogonal to that direction |
| Preprocessing.RemoveComponentIdempotent | assignment-1-imu/position.py:140-143 | subtracting the component along the same unit direction a second time changes nothing |
| Preprocessing.RemoveGravity | assignment-1-imu/position.py:117-150 | one row per input row with time and other columns kept; each reading splits into its result plus its component along the gravity direction; with `sqrt` the square root every result is orthogonal to that direction; an empty table stays empty |
| Preprocessing.RemoveGravityIdempotent | assignment-1-imu/position.py:138-143 | removing the component along the same gravity direction again leaves the output unchanged |
| Stationary.RollingVariance | assignment-1-imu/position.py:168 | the rolling variance after `fillna(0)` is never negative |
| Stationary.DetectStationary | assignment-1-imu/position.py:152-173 | one flag per sample; a flag holds exactly when the rolling variance of the magnitudes ending at that sample is below the threshold |
| Stationary.EarlySamples | assignment-1-imu/position.py:168-171 | before a full window (or for a window of fewer than two values) the variance is the filled-in 0, so a sample is stationary exactly when the threshold is positive |
| Stationary.FullWindowSamples | assignment-1-imu/position.py:168-171 | from index `w − 1` on, a sample is stationary exactly when the `n − 1` variance of the last `w` magnitudes is below the threshold |
| Stationary.NonPositiveThresholdNeverStationary | assignment-1-imu/position.py:168-171 | with a threshold of zero or less no sample is stationary |
| Stationary.ThresholdMonotone | assignment-1-imu/position.py:171 | raising the threshold keeps every stationary sample stationary |
| Stationary.ConstantReadingsAreStationary | assignment-1-imu/position.py:165-171 | unchanging readings are stationary everywhere once the threshold is positive |
| Integration.Step | assignment-1-imu/position.py:219-236 | definition of one loop iteration: the velocity is zero under a reset and the trapezoidal update otherwise, and the position is the trapezoidal update from the old and new velocities; `TrajectoryStep` ties it to the states |
| Integration.Trajectory | assignment-1-imu/position.py:210-236 | one state per sample, the first at rest (zero velocity and position) |
| Integration.TrajectoryPrefix | assignment-1-imu/position.py:219-236 | the states of a prefix of the samples are the prefix of the states: no later sample influences an earlier state |
| Integration.TrajectoryStep | assignment-1-imu/position.py:219-236 | every state after the first is one loop step from the previous state |
| Integration.IntegrateLoop | assignment-1-imu/position.py:284-304 | the loop that fills the arrays front to back computes exactly the recursive trajectory |
| Integration.AccelerationsMps2 | assignment-1-imu/position.py:269-278 | the `*_acc_mps2` columns are the accelerations as they are for m/s² input, and 9.81 times them for input in g |
| Integration.CalculatePositionWithZupt | assignment-1-imu/position.py:175-250 | one state, flag and displacement per sample; the acceleration column is the input converted to m/s² (×9.81 when the input is in g); the flags are `Stationary.DetectStationary` on the unconverted columns; the first state is at rest; each displacement is the norm of its position |
| Integration.CalculatePosition | assignment-1-imu/position.py:252-318 | one state and displacement per sample; the acceleration column is the input converted to m/s² in both modes; stationary flags exist exactly in ZUPT mode; the first state is at rest; each displacement is the norm of its position |
| Integration.PlainRecurrence | assignment-1-imu/position.py:293-304 | plain mode: per axis `v[i] = v[i−1] + ½(a[i−1]+a[i])·dt` and `p[i] = p[i−1] + ½(v[i−1]+v[i])·dt` where `a` is the input converted to m/s² (`Integration.AccelerationsMps2`) |
| Integration.ZuptRecurrence | assignment-1-imu/position.py:219-236 | ZUPT mode: a sample that `Stationary.DetectStationary` flags on the unconverted columns has zero velocity whatever came before; any other sample gets the plain velocity update over the input converted to m/s²; the position update is the plain one |
| Integration.ZuptFlagsIgnoreUnits | assignment-1-imu/position.py:191-204 | the stationary flags are the same for both unit settings: they come from the unconverted columns |
| Integration.NoStationaryIsPlain | assignment-1-imu/position.py:223-236 | with no sample flagged, the ZUPT integrator computes exactly the plain states |
| Integration.NoAccelerationStaysAtRest | assignment-1-imu/position.py:210-236 | all-zero accelerations give all-zero velocities and positions, with or without resets |
| Integration.ZeroTimeStepKeepsState | assignment-1-imu/position.py:293-304 | with `dt = 0` (nothing guards against it) the plain step leaves velocity and position unchanged |
| Integration.TrapezoidRuleScale | assignment-1-imu/position.py:297-304 | the trapezoidal update is linear: scaling the previous value and both samples scales the result |
| Integration.TrajectoryScale | assignment-1-imu/position.py:219-236 | scaling every acceleration by `k` scales every velocity and position by `k`, with or without resets |
| Integration.GUnitsScaleStates | assignment-1-imu/position.py:273-304 | for input in g, the states are 9.81 times the states integrated from the unconverted columns |
| Integration.WorkedTrajectory | assignment-1-imu/position.py:293-304 | x-accelerations 0, 2, 0 one second apart give x-velocities 0, 1, 2 and x-positions 0, 0.5, 2.0 |
| Integration.WorkedExample | assignment-1-imu/position.py:252-318 | the same numbers through the whole of `calculate_position` with m/s² input and no ZUPT |
| Drift.Max | assignment-1-imu/position.py:341 | the maximum of a non-empty column is at least every entry and is one of them |
| Drift.ErrorPercent | assignment-1-imu/position.py:346 | the percent error is undefined exactly when the known distance is 0; otherwise it times the distance is 100 times the error |
| Drift.CalculateDrift | assignment-1-imu/position.py:320-349 | final position and displacement are the last row's; drift is the norm of the final position; known-distance entries exist exactly when a distance is given: the maximum displacement, its absolute error and percent error, and the return error equal to the drift |
| Drift.FinalDisplacementIsReturnError | assignment-1-imu/position.py:316-347 | on the integrators' output the final displacement, drift magnitude and return error coincide and never exceed the maximum displacement |
| Drift.ReturnErrorZeroIffBackAtStart | assignment-1-imu/position.py:334-347 | with `sqrt` the square root, the return error is zero exactly when the final position is the starting point |
| Drift.ReductionPercent | assignment-1-imu/position.py:512 | for a positive raw error the percentage times the raw error is 100 times the reduction; otherwise it is 0 |
| Drift.ComputeImprovement | assignment-1-imu/position.py:506-515 | the improvement exists exactly when both metrics carry the known-distance entries (otherwise the key lookup fails); each reduction plus the calibrated error is the raw error, and the percentages follow the guarded formula |
| Drift.ReductionAntisymmetric | assignment-1-imu/position.py:511-513 | swapping raw and calibrated metrics negates both absolute reductions |
| Drift.ReductionPercentMeaning | assignment-1-imu/position.py:512 | with a positive raw error the percentage is positive exactly when calibration reduced the error, zero exactly when it left it unchanged, at most 100 for a non-negative calibrated error, and 100 exactly when the error vanished |
| EllipsoidFit.DesignRow | assignment-1-imu/calculate_params.py:29 | a design row has the nine entries `x², y², z², 2xy, 2xz, 2yz, 2x, 2y, 2z`; `QuadricFormIsFitResidual` shows its product with the coefficients is the quadric form plus 1 |
| EllipsoidFit.DesignMatrix | assignment-1-imu/calculate_params.py:29 | one nine-entry design row per point |
| EllipsoidFit.QuadricMatrix | assignment-1-imu/calculate_params.py:36-41 | the assembled 4×4 matrix is symmetric with −1 in its corner |
| EllipsoidFit.QuadricFormIsFitResidual | assignment-1-imu/calculate_params.py:29-41 | for every point, `[p,1]ᵀ·A·[p,1]` equals its design row times `u` minus the target 1, so a point the fit matches lies on the quadric |
| EllipsoidFit.IsCenter | assignment-1-imu/calculate_params.py:44 | definition of what `np.linalg.solve` returns: `−A[:3, :3]·center = A[:3, 3]` |
| EllipsoidFit.Translation | assignment-1-imu/calculate_params.py:47-48 | definition of `T`: the identity with the centre in the last column |
| EllipsoidFit.TranslationShifts | assignment-1-imu/calculate_params.py:47-48 | `T` sends every homogeneous point `[y, 1]` to `[y + center, 1]` |
| EllipsoidFit.TranslateAsWritten | assignment-1-imu/calculate_params.py:49 | definition of `R` as the code computes it, `T·A·Tᵀ`; its closed form is `TranslateAsWrittenParts` |
| EllipsoidFit.Normalise | assignment-1-imu/calculate_params.py:52 | definition of `R[:3, :3] / −R[3, 3]`, defined when the corner is nonzero |
| EllipsoidFit.NormaliseRescales | assignment-1-imu/calculate_params.py:52 | multiplying the normalised block by `−R[3, 3]` gives back the block of `R` |
| EllipsoidFit.TranslateAsWrittenParts | assignment-1-imu/calculate_params.py:47-49 | `T·A·Tᵀ` keeps the corner of `A` and has top-left block `B + c·b'ᵀ + b·cᵀ + A[3,3]·c·cᵀ`, for every `A` and centre |
| EllipsoidFit.EigenInput | assignment-1-imu/calculate_params.py:47-52 | the matrix the code gives the eigen-solver, the block of `T·A·Tᵀ` divided by `−R[3,3] = 1`, is `B + c·bᵀ + b·cᵀ − c·cᵀ` |
| EllipsoidFit.CornerAtCenter | assignment-1-imu/calculate_params.py:44-52 | at a centre that solves the centre equation, the constant term of `Tᵀ·A·T` is `b·c − 1`, so the corrected normalisation is defined exactly when `b·c ≠ 1` |
| EllipsoidFit.TranslateToCenterShifts | assignment-1-imu/calculate_params.py:47-49 | the form of `Tᵀ·A·T` at `y` is the form of `A` at `y + centre` |
| EllipsoidFit.TranslateToCenterStructure | assignment-1-imu/calculate_params.py:44-49 | at a centre solving the centre equation, `Tᵀ·A·T` keeps the block of `A` and has no linear terms |
| EllipsoidFit.CenteredQuadricIsUnitLevelSet | assignment-1-imu/calculate_params.py:44-52 | with `Tᵀ·A·T`, `yᵀ·M·y = 1` for the normalised block `M` exactly when `y + centre` lies on the fitted quadric |
| EllipsoidFit.FittedPointOnUnitLevel | assignment-1-imu/calculate_params.py:44-52 | a point satisfies the fitted equation exactly when its offset from the centre lies on the unit level set of the corrected eigen-input |
| EllipsoidFit.OffsetSphereFit | assignment-1-imu/calculate_params.py:29-41 | the coefficients of the sphere of radius √2 about (1, 0, 0) describe exactly that sphere |
| EllipsoidFit.OffsetSphereAsWritten | assignment-1-imu/calculate_params.py:44-53 | for that sphere and its true centre, the code's eigen-input has −2 as its first diagonal entry and a negative form along x |
| EllipsoidFit.OffsetSphereCorrected | assignment-1-imu/calculate_params.py:44-53 | with `Tᵀ·A·T` the same input has `b·c = −1`, corner −2, and yields `I/2`, the eigenvalues of a sphere of radius √2 |
| Calibration.TransformMatrix | assignment-1-imu/calculate_params.py:75-77 | column `j` of the code's transform is eigenvector `j` divided by radius `j` |
| Calibration.CalibratePoint | assignment-1-imu/calculate_params.py:80-82 | the row-wise product `(p − bias)·Tᵀ` is the transform applied to the centred point |
| Calibration.CalibratePoints | assignment-1-imu/calculate_params.py:80-82 | one calibrated point per raw point, in order, each `T·(p − bias)` |
| Calibration.CalibrateAccelerometer | assignment-1-imu/calculate_params.py:72-117 | the record's bias and ellipsoid centre are the fitted centre, the rotation is `evecs`, the radii are kept; the transform is the corrected one, `diag(1/radii)·evecsᵀ`, whose row `j` is eigenvector `j` over radius `j`, where the code builds `evecs·diag(1/radii)` (see "## Left out" and Findings); every calibrated point is the transform of the centred raw point; the statistics are mean and standard deviation of the raw and calibrated magnitudes |
| Calibration.SphereTransform | assignment-1-imu/calculate_params.py:75-77 | definition of the corrected transform: row `j` is eigenvector `j` divided by radius `j` |
| Calibration.SphereTransformIsProduct | assignment-1-imu/calculate_params.py:75-77 | the corrected transform, the one `Calibration.CalibrateAccelerometer` uses, is the product `diag(1/radii)·evecsᵀ` |
| Calibration.SphereTransformNormSq | assignment-1-imu/calculate_params.py:52-53 | with `radii = 1/sqrt(evals)`, the squared length of the transformed point is the form of `evecs·diag(evals)·evecsᵀ` at it |
| Calibration.SphereTransformCalibrates | assignment-1-imu/calculate_params.py:44-82 | when orthonormal eigenvectors and their eigenvalues decompose the corrected eigen-input, the squared length of a calibrated point is that matrix's form at the centred point |
| Calibration.CalibratedOnUnitSphere | assignment-1-imu/calculate_params.py:44-82 | end to end, for orthonormal eigenvectors: a calibrated point has length 1 exactly when the raw point lies on the fitted quadric |
| Calibration.SkewEigenbasis | assignment-1-imu/calculate_params.py:52 | with a repeated eigenvalue, unit eigenvectors that `eig` may return need not recompose the matrix: three unit eigenvectors of the identity give a top-left entry of 1.36 |
| Calibration.AxisAlignedTransformsAgree | assignment-1-imu/calculate_params.py:75-77 | with the eigenvectors along the axes, the code's transform and the intended one are the same matrix |
| Calibration.QuarterTurnDecomposition | assignment-1-imu/calculate_params.py:52-53 | the counterexample below is a genuine decomposition: orthonormal eigenvectors and radii `1/sqrt` of the eigenvalues |
| Calibration.QuarterTurnCounterexample | assignment-1-imu/calculate_params.py:75-82 | for eigenvectors a quarter turn about z and radii (2, 1, 1), the point (0, 2, 0) lies on the ellipsoid; the intended transform sends it to (1, 0, 0), the code's to (−2, 0, 0) |
| Calibration.QuarterTurnOffUnitSphere | assignment-1-imu/calculate_params.py:75-82 | on that point of the fitted ellipsoid the intended calibration has squared length 1 and the code's has squared length 4 |

## Left out

- Serial acquisition, plotting, the CSV and JSON reading and writing, the low-pass filter (scipy `butter`/`filtfilt`) and the `main` functions are not part of this model. They are I/O or foreign numerics.
- `np.linalg.lstsq`, `np.linalg.solve`, `np.linalg.eig` and `1/np.sqrt(evals)` are foreign solvers. Their results are parameters, and the relations they satisfy are preconditions (`IsCenter`, `Recompose(evecs, evals) == …`, `RadiiOf`). `Recompose` further assumes orthonormal eigenvectors, which `eig` does not promise for a repeated eigenvalue. The NaN radii a negative eigenvalue produces are therefore outside the model; `EllipsoidFit.OffsetSphereAsWritten` shows the input that would produce one.
- Calibration.SphereTransformCalibrates: requires `Recompose(evecs, evals)` to equal the eigen-input, which holds only for orthonormal eigenvectors. `np.linalg.eig` guarantees only unit eigenvectors, which a repeated eigenvalue leaves non-orthogonal (`Calibration.SkewEigenbasis`). `np.linalg.eigh` would guarantee it. `Calibration.CalibratedOnUnitSphere` carries the same hypothesis.
- The catch-all `except` in `apply_calibration` is not modelled. A malformed parameter file is outside a typed model; a missing one is the `None` case.
- IEEE-754 rounding, NaN and infinity are not modelled: columns are `real`. Where the code would produce a non-finite number, the model returns `None` (`Drift.ErrorPercent`) or requires the case away (below).
- `sqrt` is a parameter. Properties that depend on it being the square root are stated under `IsSqrtOf` at the point concerned.
- Preprocessing.RemoveGravity: requires a nonzero gravity magnitude when the table is not empty. The code divides by it and would produce NaN columns.
- Preprocessing.GravityDirection: requires a non-empty table and a nonzero gravity magnitude, for the same reason; the mean of an empty selection is NaN in the code.
- Drift.CalculateDrift: requires at least one row. The code reads the last row with `iloc[-1]`, which raises on an empty table.
- Calibration.CalibrateAccelerometer: requires at least one point and nonzero radii. The fit is undefined without points, and the code divides by the radii.
- Calibration.CalibrateAccelerometer: builds the transform as `diag(1/radii)·evecsᵀ`, not the code's `evecs·diag(1/radii)`. The code's version is `Calibration.TransformMatrix` (see Findings).
- Stationary.RollingVariance: a window of 0 or 1 value gives pandas NaN, which `fillna(0)` turns into 0; the model returns 0 directly. `windowSize` is a nat, so a negative `WINDOW_SIZE`, which pandas rejects with ValueError, is excluded.
- The standard deviations in the calibration record are stated as the square root of the population variance, via the `sqrt` parameter. Nothing is proved about their size.

## Findings

| source | as written | input that shows it | evidently intended | confidence | as-written member | corrected member |
|---|---|---|---|---|---|---|
| assignment-1-imu/calculate_params.py:47-52 | `R = T·A·Tᵀ`, with the centre in the last column of `T`. The corner stays −1, so the normalisation does nothing, and the block handed to `eig` is `B + c·bᵀ + b·cᵀ − c·cᵀ`. | The sphere `x² + y² + z² − 2x = 1` (radius √2 about (1, 0, 0)), fitted exactly, with its true centre (1, 0, 0). The eigen-input has −2 as its first diagonal entry, so it has a negative eigenvalue and a NaN radius. | `R = Tᵀ·A·T` moves the centre to the origin. The eigen-input `M` then satisfies `yᵀ·M·y = 1` exactly on the fitted surface; for the sphere it is `I/2`, giving radius √2. | high (proved; not executed) | EllipsoidFit.OffsetSphereAsWritten | EllipsoidFit.CenteredQuadricIsUnitLevelSet |
| assignment-1-imu/calculate_params.py:75-77 | `transform = evecs·diag(1/radii)`: first divide by the radii, then rotate by the eigenvectors. | Eigenvectors a quarter turn about z, eigenvalues (1/4, 1, 1), radii (2, 1, 1), centred point (0, 2, 0) on the ellipsoid. The code's transform gives (−2, 0, 0), of length 2 instead of 1. | `diag(1/radii)·evecsᵀ`: rotate into the eigenbasis, then divide each coordinate by its radius. For orthonormal eigenvectors, as `eigh` returns, every point of the fitted ellipsoid then lands on the unit sphere. | high (proved; not executed) | Calibration.QuarterTurnCounterexample | Calibration.SphereTransformCalibrates |

The two forms agree when the eigenvectors are the coordinate axes (`Calibration.AxisAlignedTransformsAgree`). This is why the error does not show for a sensor whose axes are only scaled.

=== FILE: calibration.dfy ===
/** The accelerometer calibration `calibrate_accelerometer` builds from a
    fitted ellipsoid (assignment-1-imu/calculate_params.py): the bias is the
    ellipsoid's centre, the transform is `evecs·diag(1/radii)`, every raw
    point `p` becomes `transform·(p − bias)`, and the persisted record keeps
    the bias, the transform, magnitude statistics and the ellipsoid itself.

    The fit (`lstsq`, `solve`, `eig`, `1/sqrt(evals)`) is outside the model:
    the centre, radii and eigenvectors enter as parameters. The module also
    holds the transform that does map the fitted ellipsoid onto the unit
    sphere, `diag(1/radii)·evecsᵀ`, and a point on which the two differ. */
module Calibration {
  import opened LinAlg
  import opened Stats
  import opened EllipsoidFit

  /** Radii the code can divide by. */
  predicate NonzeroRadii(r: Vec3) {
    r.x != 0.0 && r.y != 0.0 && r.z != 0.0
  }

  /** `1.0 / radii`. */
  function Reciprocals(r: Vec3): Vec3
    requires NonzeroRadii(r)
  {
    Vec3(1.0 / r.x, 1.0 / r.y, 1.0 / r.z)
  }

  /** `transform_matrix = evecs.dot(np.diag(1.0 / radii))`, as written:
      column `j` is eigenvector `j` divided by radius `j`. */
  function TransformMatrix(evecs: Mat3, radii: Vec3): (t: Mat3)
    requires NonzeroRadii(radii)
    ensures Col0(t) == Scale(1.0 / radii.x, Col0(evecs))
    ensures Col1(t) == Scale(1.0 / radii.y, Col1(evecs))
    ensures Col2(t) == Scale(1.0 / radii.z, Col2(evecs))
  {
    var t := Mul3(evecs, Diag(Reciprocals(radii)));
    Vec3Ext(Col0(t), Scale(1.0 / radii.x, Col0(evecs)));
    Vec3Ext(Col1(t), Scale(1.0 / radii.y, Col1(evecs)));
    Vec3Ext(Col2(t), Scale(1.0 / radii.z, Col2(evecs)));
    t
  }

  /** One row of `np.dot(data_points - bias, transform_matrix.T)`: the
      centred point as a row vector times the transposed transform. It is
      the transform applied to the centred point. */
  function CalibratePoint(transform: Mat3, bias: Vec3, p: Vec3): (q: Vec3)
    ensures q == MatVec(transform, Sub(p, bias))
  {
    RowTimesTranspose(Sub(p, bias), Transpose3(transform));
    TransposeTwice(transform);
    RowTimes(Sub(p, bias), Transpose3(transform))
  }

  /** The calibrated data set: one calibrated point per raw point, in order. */
  function CalibratePoints(points: seq<Vec3>, transform: Mat3, bias: Vec3): (cs: seq<Vec3>)
    ensures |cs| == |points|
    ensures forall i :: 0 <= i < |points| ==> cs[i] == MatVec(transform, Sub(points[i], bias))
  {
    seq(|points|, i requires 0 <= i < |points| => CalibratePoint(transform, bias, points[i]))
  }

  /** The `statistics` entry of the record: mean and (population) standard
      deviation of the raw and of the calibrated magnitudes. */
  datatype MagnitudeStatistics = MagnitudeStatistics(
    rawMean: real, rawStd: real, calibratedMean: real, calibratedStd: real)

  /** The `ellipsoid_params` entry of the record. */
  datatype EllipsoidParams = EllipsoidParams(center: Vec3, radii: Vec3, rotation: Mat3)

  /** The JSON record `calibrate_accelerometer` returns and the pipeline
      later reads: `bias`, `transform_matrix`, `statistics` and
      `ellipsoid_params`. */
  datatype CalibrationRecord = CalibrationRecord(
    bias: Vec3, transform: Mat3, statistics: MagnitudeStatistics, ellipsoid: EllipsoidParams)

  /** The record together with the calibrated data set. */
  datatype Calibrated = Calibrated(record: CalibrationRecord, points: seq<Vec3>)

  /** `calibrate_accelerometer` after the fit: given the raw points and the
      fitted centre, radii and eigenvectors, build the transform, calibrate
      every point and assemble the record. The transform is the one that
      maps the fitted ellipsoid onto the unit sphere, `diag(1/radii)·evecsᵀ`
      (`SphereTransform`): row `j` is eigenvector `j` divided by radius `j`.
      The code's `evecs·diag(1/radii)` is `TransformMatrix`. */
  function CalibrateAccelerometer(points: seq<Vec3>, center: Vec3, radii: Vec3, evecs: Mat3,
                                  sqrt: real -> real): (r: Calibrated)
    requires |points| > 0
    requires NonzeroRadii(radii)
    ensures r.record.bias == center && r.record.ellipsoid.center == center
    ensures r.record.ellipsoid.radii == radii && r.record.ellipsoid.rotation == evecs
    ensures r.record.transform.r0 == Scale(1.0 / radii.x, Col0(evecs))
    ensures r.record.transform.r1 == Scale(1.0 / radii.y, Col1(evecs))
    ensures r.record.transform.r2 == Scale(1.0 / radii.z, Col2(evecs))
    ensures |r.points| == |points|
    ensures forall i :: 0 <= i < |points| ==>
      r.points[i] == MatVec(r.record.transform, Sub(points[i], r.record.bias))
    ensures r.record.statistics.rawMean == Mean(Magnitudes(points, sqrt))
    ensures r.record.statistics.calibratedMean == Mean(Magnitudes(r.points, sqrt))
    ensures r.record.statistics.rawStd == StandardDeviation(Magnitudes(points, sqrt), sqrt)
    ensures r.record.statistics.calibratedStd == StandardDeviation(Magnitudes(r.points, sqrt), sqrt)
  {
    var bias := center;
    var transform := SphereTransform(evecs, radii);
    var calibrated := CalibratePoints(points, transform, bias);
    var raw := Magnitudes(points, sqrt);
    var cal := Magnitudes(calibrated, sqrt);
    var stats := MagnitudeStatistics(Mean(raw), StandardDeviation(raw, sqrt),
                                     Mean(cal), StandardDeviation(cal, sqrt));
    Calibrated(CalibrationRecord(bias, transform, stats, EllipsoidParams(center, radii, evecs)),
               calibrated)
  }

  /** The transform that maps the fitted ellipsoid onto the unit sphere:
      rotate into the eigenbasis, then divide each coordinate by its radius,
      `diag(1/radii)·evecsᵀ`. */
  function SphereTransform(evecs: Mat3, radii: Vec3): Mat3
    requires NonzeroRadii(radii)
  {
    Mat3(Scale(1.0 / radii.x, Col0(evecs)),
         Scale(1.0 / radii.y, Col1(evecs)),
         Scale(1.0 / radii.z, Col2(evecs)))
  }

  /** Row `j` divided by radius `j` is `diag(1/radii)·evecsᵀ`. */
  lemma SphereTransformIsProduct(evecs: Mat3, radii: Vec3)
    requires NonzeroRadii(radii)
    ensures SphereTransform(evecs, radii) == Mul3(Diag(Reciprocals(radii)), Transpose3(evecs))
  {
    DiagMul(Reciprocals(radii), Transpose3(evecs));
  }

  /** `radii = 1/sqrt(evals)`, squared: `radius² · eigenvalue = 1`. */
  predicate RadiiOf(radii: Vec3, evals: Vec3) {
    radii.x * radii.x * evals.x == 1.0
    && radii.y * radii.y * evals.y == 1.0
    && radii.z * radii.z * evals.z == 1.0
  }

  /** `evecs·diag(evals)·evecsᵀ`: the matrix with eigenvectors `evecs` and
      eigenvalues `evals`, when the eigenvectors are orthonormal, so that
      `evecsᵀ` inverts `evecs`. `eigh` always returns such eigenvectors;
      `eig` does so for a symmetric matrix only when its eigenvalues are
      distinct. */
  function Recompose(evecs: Mat3, evals: Vec3): Mat3 {
    Mul3(Mul3(evecs, Diag(evals)), Transpose3(evecs))
  }

  /** With a repeated eigenvalue, unit eigenvectors need not be orthogonal.
      Every unit vector is an eigenvector of the identity with eigenvalue 1,
      and the unit columns `(1, 0, 0)`, `(0.6, 0.8, 0)`, `(0, 0, 1)` do not
      recompose to the identity. */
  lemma SkewEigenbasis(evecs: Mat3, evals: Vec3)
    requires evecs == Mat3(Vec3(1.0, 0.6, 0.0), Vec3(0.0, 0.8, 0.0), Vec3(0.0, 0.0, 1.0))
    requires evals == Vec3(1.0, 1.0, 1.0)
    ensures NormSq(Col0(evecs)) == NormSq(Col1(evecs)) == NormSq(Col2(evecs)) == 1.0
    ensures Recompose(evecs, evals).r0.x == 1.36
    ensures Recompose(evecs, evals) != Identity3
  {
    UnitColumns(Col0(evecs), Col1(evecs), Col2(evecs));
    RecomposeUnitCorner(evecs, evals);
    SkewRowNorm(evecs.r0);
  }

  /** The first row of `evecs·diag(evals)·evecsᵀ`. */
  lemma RecomposeFirstRow(evecs: Mat3, evals: Vec3)
    ensures Recompose(evecs, evals).r0 == RowTimes(RowTimes(evecs.r0, Diag(evals)), Transpose3(evecs))
  {
  }

  /** With unit eigenvalues the top-left entry of `evecs·evecsᵀ` is the
      squared length of the first row of `evecs`. */
  lemma RecomposeUnitCorner(evecs: Mat3, evals: Vec3)
    requires evals == Vec3(1.0, 1.0, 1.0)
    ensures Recompose(evecs, evals).r0.x == NormSq(evecs.r0)
  {
    RecomposeFirstRow(evecs, evals);
    assert RowTimes(evecs.r0, Diag(evals)) == evecs.r0;
  }

  lemma UnitColumns(c0: Vec3, c1: Vec3, c2: Vec3)
    requires c0 == Vec3(1.0, 0.0, 0.0) && c1 == Vec3(0.6, 0.8, 0.0) && c2 == Vec3(0.0, 0.0, 1.0)
    ensures NormSq(c0) == NormSq(c1) == NormSq(c2) == 1.0
  {
  }

  lemma SkewRowNorm(row: Vec3)
    requires row == Vec3(1.0, 0.6, 0.0)
    ensures NormSq(row) == 1.36
  {
  }

  /** The corrected transform rotates `y` into the eigenbasis and divides
      each coordinate by its radius. */
  lemma SphereTransformApplied(evecs: Mat3, radii: Vec3, y: Vec3)
    requires NonzeroRadii(radii)
    ensures MatVec(SphereTransform(evecs, radii), y)
         == Pointwise(Reciprocals(radii), MatVec(Transpose3(evecs), y))
  {
    SphereTransformIsProduct(evecs, radii);
    DiagMulMatVec(Reciprocals(radii), Transpose3(evecs), y);
  }

  /** The form of `evecs·diag(evals)·evecsᵀ` weighs the coordinates of `y`
      in the eigenbasis by the eigenvalues. */
  lemma RecomposeForm(evecs: Mat3, evals: Vec3, y: Vec3)
    ensures
      var z := MatVec(Transpose3(evecs), y);
      QuadForm3(Recompose(evecs, evals), y) == Dot(z, Pointwise(evals, z))
  {
    var z := MatVec(Transpose3(evecs), y);
    var w := Pointwise(evals, z);
    assert MatVec(Recompose(evecs, evals), y) == MatVec(Mul3(evecs, Diag(evals)), z) by {
      MatVecMul3(Mul3(evecs, Diag(evals)), Transpose3(evecs), y);
    }
    assert MatVec(Mul3(evecs, Diag(evals)), z) == MatVec(evecs, MatVec(Diag(evals), z)) by {
      MatVecMul3(evecs, Diag(evals), z);
    }
    assert MatVec(Diag(evals), z) == w by { DiagMatVec(evals, z); }
    DotMatVecTranspose(y, evecs, w);
  }

  lemma ReciprocalSquared(r: real, l: real)
    requires r != 0.0 && r * r * l == 1.0
    ensures (1.0 / r) * (1.0 / r) == l
  {
    assert l == 1.0 / (r * r);
  }

  lemma WeightedTerm(i: real, l: real, z: real, a: real, b: real)
    requires i * i == l && a == i * z && b == l * z
    ensures a * a == z * b
  {
  }

  /** Squaring the coordinates divided by the radii weighs them by the
      eigenvalues. */
  lemma WeightedSquares(radii: Vec3, evals: Vec3, z: Vec3)
    requires NonzeroRadii(radii) && RadiiOf(radii, evals)
    ensures NormSq(Pointwise(Reciprocals(radii), z)) == Dot(z, Pointwise(evals, z))
  {
    var inv := Reciprocals(radii);
    var q := Pointwise(inv, z);
    var w := Pointwise(evals, z);
    ReciprocalSquared(radii.x, evals.x);
    ReciprocalSquared(radii.y, evals.y);
    ReciprocalSquared(radii.z, evals.z);
    WeightedTerm(inv.x, evals.x, z.x, q.x, w.x);
    WeightedTerm(inv.y, evals.y, z.y, q.y, w.y);
    WeightedTerm(inv.z, evals.z, z.z, q.z, w.z);
  }

  /** The squared length of the corrected calibration of `y` is the form
      `yᵀ·M·y` of the decomposed matrix. */
  lemma SphereTransformNormSq(evecs: Mat3, radii: Vec3, evals: Vec3, y: Vec3)
    requires NonzeroRadii(radii) && RadiiOf(radii, evals)
    ensures NormSq(MatVec(SphereTransform(evecs, radii), y)) == QuadForm3(Recompose(evecs, evals), y)
  {
    SphereTransformApplied(evecs, radii, y);
    RecomposeForm(evecs, evals, y);
    WeightedSquares(radii, evals, MatVec(Transpose3(evecs), y));
  }

  /** The intended calibration: when orthonormal `evecs` and `evals`
      decompose the matrix the corrected fit hands to `eig` (the `Recompose`
      hypothesis) and `radii = 1/sqrt(evals)`,
      the squared length of the calibrated point `diag(1/radii)·evecsᵀ·(p −
      center)` is the form of that matrix at `p − center`, which
      `FittedPointOnUnitLevel` shows is 1 exactly when `p` lies on the
      fitted quadric. */
  lemma SphereTransformCalibrates(u: seq<real>, center: Vec3, evecs: Mat3, evals: Vec3,
                                  radii: Vec3, p: Vec3)
    requires |u| == 9 && IsCenter(QuadricMatrix(u), center)
    requires Dot(LastColumnTop(QuadricMatrix(u)), center) != 1.0
    requires Recompose(evecs, evals) == EigenInputCorrected(u, center)
    requires NonzeroRadii(radii) && RadiiOf(radii, evals)
    ensures NormSq(MatVec(SphereTransform(evecs, radii), Sub(p, center)))
         == QuadForm3(EigenInputCorrected(u, center), Sub(p, center))
  {
    SphereTransformNormSq(evecs, radii, evals, Sub(p, center));
  }

  /** End to end: when the centre solves the fitted centre equation and
      `evecs`, `evals` decompose the corrected eigen-input with
      `radii = 1/sqrt(evals)`, a calibrated point has length 1 exactly when
      the raw point satisfies the fitted equation. */
  lemma CalibratedOnUnitSphere(u: seq<real>, points: seq<Vec3>, center: Vec3, evecs: Mat3,
                               evals: Vec3, radii: Vec3, sqrt: real -> real, i: nat)
    requires |u| == 9 && i < |points|
    requires IsCenter(QuadricMatrix(u), center)
    requires Dot(LastColumnTop(QuadricMatrix(u)), center) != 1.0
    requires Recompose(evecs, evals) == EigenInputCorrected(u, center)
    requires NonzeroRadii(radii) && RadiiOf(radii, evals)
    ensures NormSq(CalibrateAccelerometer(points, center, radii, evecs, sqrt).points[i]) == 1.0
        <==> QuadForm4(QuadricMatrix(u), Homogeneous(points[i])) == 0.0
  {
    var c := CalibrateAccelerometer(points, center, radii, evecs, sqrt);
    assert c.points[i] == MatVec(SphereTransform(evecs, radii), Sub(points[i], center));
    SphereTransformCalibrates(u, center, evecs, evals, radii, points[i]);
    FittedPointOnUnitLevel(u, center, points[i]);
  }

  /** With the eigenvectors along the axes the code's transform is the
      intended one. */
  lemma AxisAlignedTransformsAgree(radii: Vec3)
    requires NonzeroRadii(radii)
    ensures TransformMatrix(Identity3, radii) == SphereTransform(Identity3, radii)
  {
    Mat3Ext(TransformMatrix(Identity3, radii), SphereTransform(Identity3, radii));
  }

  /** A quarter turn about z, `(x, y, z) ↦ (−y, x, z)`: orthonormal, with
      integer entries. */
  const QuarterTurn: Mat3 := Mat3(Vec3(0.0, -1.0, 0.0), Vec3(1.0, 0.0, 0.0), Vec3(0.0, 0.0, 1.0))

  /** The rows of the quarter turn, stated on a variable so that the proofs
      below stay symbolic. */
  predicate IsQuarterTurn(e: Mat3) {
    e.r0 == Vec3(0.0, -1.0, 0.0) && e.r1 == Vec3(1.0, 0.0, 0.0) && e.r2 == Vec3(0.0, 0.0, 1.0)
  }

  lemma QuarterTurnRow0(e: Mat3)
    requires IsQuarterTurn(e)
    ensures Mul3(Transpose3(e), e).r0 == Vec3(1.0, 0.0, 0.0)
  {
    assert Col0(e) == Vec3(0.0, 1.0, 0.0);
    SecondRowTimes(1.0, e);
    Vec3Ext(Scale(1.0, e.r1), Vec3(1.0, 0.0, 0.0));
  }

  lemma QuarterTurnRow1(e: Mat3)
    requires IsQuarterTurn(e)
    ensures Mul3(Transpose3(e), e).r1 == Vec3(0.0, 1.0, 0.0)
  {
    assert Col1(e) == Vec3(-1.0, 0.0, 0.0);
    FirstRowTimes(-1.0, e);
    Vec3Ext(Scale(-1.0, e.r0), Vec3(0.0, 1.0, 0.0));
  }

  lemma QuarterTurnRow2(e: Mat3)
    requires IsQuarterTurn(e)
    ensures Mul3(Transpose3(e), e).r2 == Vec3(0.0, 0.0, 1.0)
  {
    assert Col2(e) == Vec3(0.0, 0.0, 1.0);
    ThirdRowTimes(1.0, e);
    Vec3Ext(Scale(1.0, e.r2), Vec3(0.0, 0.0, 1.0));
  }

  lemma QuarterTurnRotates(e: Mat3)
    requires IsQuarterTurn(e)
    ensures Orthonormal(e)
  {
    QuarterTurnRow0(e);
    QuarterTurnRow1(e);
    QuarterTurnRow2(e);
    Mat3Rows(Mul3(Transpose3(e), e), Identity3);
  }

  /** In the eigenbasis the centred point (0, 2, 0) is (2, 0, 0). */
  lemma QuarterTurnCoordinates(e: Mat3, y: Vec3)
    requires IsQuarterTurn(e) && y == Vec3(0.0, 2.0, 0.0)
    ensures MatVec(Transpose3(e), y) == Vec3(2.0, 0.0, 0.0)
  {
    Vec3Ext(MatVec(Transpose3(e), y), Vec3(2.0, 0.0, 0.0));
  }

  lemma QuarterTurnWeights(evals: Vec3, z: Vec3)
    requires evals == Vec3(0.25, 1.0, 1.0) && z == Vec3(2.0, 0.0, 0.0)
    ensures Dot(z, Pointwise(evals, z)) == 1.0
  {
  }

  /** A point with eigenbasis coordinates (2, 0, 0) lies on the ellipsoid
      with eigenvalues (1/4, 1, 1). */
  lemma OnEllipsoidAtCoordinates(e: Mat3, evals: Vec3, y: Vec3)
    requires MatVec(Transpose3(e), y) == Vec3(2.0, 0.0, 0.0) && evals == Vec3(0.25, 1.0, 1.0)
    ensures QuadForm3(Recompose(e, evals), y) == 1.0
  {
    RecomposeForm(e, evals, y);
    QuarterTurnWeights(evals, MatVec(Transpose3(e), y));
  }

  lemma HalveFirst(radii: Vec3, z: Vec3)
    requires radii == Vec3(2.0, 1.0, 1.0) && z == Vec3(2.0, 0.0, 0.0)
    ensures NonzeroRadii(radii) && Pointwise(Reciprocals(radii), z) == Vec3(1.0, 0.0, 0.0)
  {
    Vec3Ext(Pointwise(Reciprocals(radii), z), Vec3(1.0, 0.0, 0.0));
  }

  /** The intended transform sends a point with eigenbasis coordinates
      (2, 0, 0) and radii (2, 1, 1) to the unit vector (1, 0, 0). */
  lemma CorrectedAtCoordinates(e: Mat3, radii: Vec3, y: Vec3)
    requires MatVec(Transpose3(e), y) == Vec3(2.0, 0.0, 0.0) && radii == Vec3(2.0, 1.0, 1.0)
    ensures NonzeroRadii(radii)
    ensures MatVec(SphereTransform(e, radii), y) == Vec3(1.0, 0.0, 0.0)
  {
    HalveFirst(radii, MatVec(Transpose3(e), y));
    SphereTransformApplied(e, radii, y);
  }

  lemma HalveRadii(radii: Vec3, y: Vec3)
    requires radii == Vec3(2.0, 1.0, 1.0) && y == Vec3(0.0, 2.0, 0.0)
    ensures NonzeroRadii(radii) && MatVec(Diag(Reciprocals(radii)), y) == Vec3(0.0, 2.0, 0.0)
  {
    DiagMatVec(Reciprocals(radii), y);
    Vec3Ext(Pointwise(Reciprocals(radii), y), Vec3(0.0, 2.0, 0.0));
  }

  lemma QuarterTurnApplied(e: Mat3, d: Vec3)
    requires IsQuarterTurn(e) && d == Vec3(0.0, 2.0, 0.0)
    ensures MatVec(e, d) == Vec3(-2.0, 0.0, 0.0)
  {
    Vec3Ext(MatVec(e, d), Vec3(-2.0, 0.0, 0.0));
  }

  /** The code's transform applies `diag(1/radii)` first and `evecs`
      second. */
  lemma TransformMatrixApplied(e: Mat3, radii: Vec3, y: Vec3)
    requires NonzeroRadii(radii)
    ensures MatVec(TransformMatrix(e, radii), y) == MatVec(e, MatVec(Diag(Reciprocals(radii)), y))
  {
    MatVecMul3(e, Diag(Reciprocals(radii)), y);
  }

  /** The quarter turn, eigenvalues (1/4, 1, 1), radii (2, 1, 1) and the
      centred point (0, 2, 0). */
  predicate IsQuarterTurnCase(e: Mat3, radii: Vec3, evals: Vec3, y: Vec3) {
    IsQuarterTurn(e) && radii == Vec3(2.0, 1.0, 1.0) && evals == Vec3(0.25, 1.0, 1.0)
    && y == Vec3(0.0, 2.0, 0.0)
  }

  /** The case is a genuine eigen-decomposition: orthonormal axes, and the
      radii are `1/sqrt` of the eigenvalues. */
  lemma QuarterTurnDecomposition(e: Mat3, radii: Vec3, evals: Vec3, y: Vec3)
    requires IsQuarterTurnCase(e, radii, evals, y)
    ensures Orthonormal(e) && NonzeroRadii(radii) && RadiiOf(radii, evals)
  {
    assert Orthonormal(e) by { QuarterTurnRotates(e); }
    assert RadiiOf(radii, evals) by { HalvedRadiiOf(radii, evals); }
  }

  lemma HalvedRadiiOf(radii: Vec3, evals: Vec3)
    requires radii == Vec3(2.0, 1.0, 1.0) && evals == Vec3(0.25, 1.0, 1.0)
    ensures RadiiOf(radii, evals)
  {
    assert radii.x * radii.x == 4.0;
  }

  /** The code's transform sends the centred point (0, 2, 0) to (−2, 0, 0). */
  lemma QuarterTurnAsWritten(e: Mat3, radii: Vec3, y: Vec3)
    requires IsQuarterTurn(e) && radii == Vec3(2.0, 1.0, 1.0) && y == Vec3(0.0, 2.0, 0.0)
    ensures NonzeroRadii(radii)
    ensures MatVec(TransformMatrix(e, radii), y) == Vec3(-2.0, 0.0, 0.0)
  {
    HalveRadii(radii, y);
    QuarterTurnApplied(e, Vec3(0.0, 2.0, 0.0));
    TransformMatrixApplied(e, radii, y);
  }

  /** A counterexample to `evecs·diag(1/radii)`: with the eigenvectors a
      quarter turn about z, eigenvalues (1/4, 1, 1) and so radii (2, 1, 1)
      (`QuarterTurnDecomposition`), the centred point (0, 2, 0) lies on the
      ellipsoid (its form is 1); the intended transform sends it to the unit
      vector (1, 0, 0), but the code's transform sends it to (−2, 0, 0), of
      squared length 4. */
  lemma QuarterTurnCounterexample(e: Mat3, radii: Vec3, evals: Vec3, y: Vec3)
    requires IsQuarterTurnCase(e, radii, evals, y)
    ensures NonzeroRadii(radii)
    ensures QuadForm3(Recompose(e, evals), y) == 1.0
    ensures MatVec(SphereTransform(e, radii), y) == Vec3(1.0, 0.0, 0.0)
    ensures MatVec(TransformMatrix(e, radii), y) == Vec3(-2.0, 0.0, 0.0)
  {
    QuarterTurnCoordinates(e, y);
    OnEllipsoidAtCoordinates(e, evals, y);
    CorrectedAtCoordinates(e, radii, y);
    QuarterTurnAsWritten(e, radii, y);
  }

  /** So on that point of the fitted ellipsoid the intended calibration has
      length 1 and the code's has squared length 4. */
  lemma QuarterTurnOffUnitSphere(e: Mat3, radii: Vec3, evals: Vec3, y: Vec3)
    requires IsQuarterTurnCase(e, radii, evals, y)
    ensures NonzeroRadii(radii)
    ensures NormSq(MatVec(SphereTransform(e, radii), y)) == 1.0
    ensures NormSq(MatVec(TransformMatrix(e, radii), y)) == 4.0
  {
    QuarterTurnCounterexample(e, radii, evals, y);
    AxisPointNorms(MatVec(SphereTransform(e, radii), y), MatVec(TransformMatrix(e, radii), y));
  }

  lemma AxisPointNorms(good: Vec3, bad: Vec3)
    requires good == Vec3(1.0, 0.0, 0.0) && bad == Vec3(-2.0, 0.0, 0.0)
    ensures NormSq(good) == 1.0 && NormSq(bad) == 4.0
  {
  }
}

=== FILE: drift.dfy ===
/** `calculate_drift` in `assignment-1-imu/position.py` and the
    `improvement` entry `save_results` writes: how far the integrated
    position ends from where it started, how far the largest displacement is
    from the known travel distance, and how much calibration reduced both. */
module Drift {
  import opened LinAlg
  import opened Wrappers
  import opened Integration

  function Abs(x: real): (r: real)
    ensures 0.0 <= r && (r == x || r == -x)
  {
    if x < 0.0 then -x else x
  }

  /** pandas `max()` of a non-empty column. */
  function Max(xs: seq<real>): (m: real)
    requires |xs| > 0
    ensures forall i :: 0 <= i < |xs| ==> xs[i] <= m
    ensures exists i :: 0 <= i < |xs| && xs[i] == m
    decreases |xs|
  {
    if |xs| == 1 then xs[0]
    else
      var rest := Max(xs[1..]);
      if xs[0] >= rest then xs[0]
      else
        var j :| 0 <= j < |xs[1..]| && xs[1..][j] == rest;
        assert xs[j + 1] == rest;
        rest
  }

  /** `abs(max_disp − known_distance) / known_distance * 100`. The code has
      no guard: a known distance of zero gives numpy's non-finite result,
      modelled as `None`. */
  function ErrorPercent(error: real, knownDistance: real): (r: Option<real>)
    ensures r.None? <==> knownDistance == 0.0
    ensures r.Some? ==> r.value * knownDistance == error * 100.0
  {
    if knownDistance == 0.0 then None
    else
      QuotientTimes(error, knownDistance, 100.0);
      Some(error / knownDistance * 100.0)
  }

  lemma QuotientTimes(a: real, d: real, k: real)
    requires d != 0.0
    ensures a / d * k * d == a * k
  {
    var q := a / d;
    assert q * d == a;
    calc {
      q * k * d;
      == q * d * k;
      == a * k;
    }
  }

  /** The entries that exist only when a known distance is given. */
  datatype KnownDistanceMetrics = KnownDistanceMetrics(
    knownDistance: real,
    maxDisplacement: real,
    maxDisplacementError: real,
    maxDisplacementErrorPercent: Option<real>,
    returnError: real)

  /** The dictionary `calculate_drift` returns. */
  datatype DriftMetrics = DriftMetrics(
    finalPosition: Vec3,
    finalDisplacement: real,
    driftMagnitude: real,
    known: Option<KnownDistanceMetrics>)

  /** `calculate_drift`: the last row's position and displacement, the norm
      of the last position, and, given the known distance, the largest
      displacement, its error against the distance, and the return error.
      The code reads the last row with `iloc[-1]`, which fails on an empty
      table. */
  function CalculateDrift(pos: PositionData, knownDistance: Option<real>, sqrt: real -> real): (m: DriftMetrics)
    requires |pos.states| > 0 && |pos.displacement| > 0
    ensures m.finalPosition == pos.states[|pos.states| - 1].p
    ensures m.finalDisplacement == pos.displacement[|pos.displacement| - 1]
    ensures m.driftMagnitude == Norm(m.finalPosition, sqrt)
    ensures m.known.Some? <==> knownDistance.Some?
    ensures m.known.Some? ==>
      var k := m.known.value;
      k.knownDistance == knownDistance.value
      && (forall i :: 0 <= i < |pos.displacement| ==> pos.displacement[i] <= k.maxDisplacement)
      && (exists i :: 0 <= i < |pos.displacement| && pos.displacement[i] == k.maxDisplacement)
      && k.maxDisplacementError == Abs(k.maxDisplacement - k.knownDistance)
      && k.maxDisplacementErrorPercent == ErrorPercent(k.maxDisplacementError, k.knownDistance)
      && k.returnError == m.driftMagnitude
  {
    var finalPos := pos.states[|pos.states| - 1].p;
    var drift := Norm(finalPos, sqrt);
    var known := match knownDistance
      case None => None
      case Some(d) =>
        var maxDisp := Max(pos.displacement);
        var err := Abs(maxDisp - d);
        Some(KnownDistanceMetrics(d, maxDisp, err, ErrorPercent(err, d), drift));
    DriftMetrics(finalPos, pos.displacement[|pos.displacement| - 1], drift, known)
  }

  /** On the integrators' output, the final displacement, the drift
      magnitude and the return error are one number: the distance of the
      last position from the start. It never exceeds the largest
      displacement. */
  lemma FinalDisplacementIsReturnError(data: seq<Samples.Sample>, unitsInMps2: bool, applyZupt: bool,
                                       accThreshold: real, windowSize: nat, knownDistance: Option<real>,
                                       sqrt: real -> real)
    requires |data| > 0
    ensures
      var pos := CalculatePosition(data, unitsInMps2, applyZupt, accThreshold, windowSize, sqrt);
      var m := CalculateDrift(pos, knownDistance, sqrt);
      m.finalDisplacement == m.driftMagnitude
      && (m.known.Some? ==> m.known.value.returnError == m.finalDisplacement
                            && m.finalDisplacement <= m.known.value.maxDisplacement)
  {
  }

  /** With `sqrt` the square root there, the return error is zero exactly
      when the integrated position ends back at the start. */
  lemma ReturnErrorZeroIffBackAtStart(pos: PositionData, knownDistance: Option<real>, sqrt: real -> real)
    requires |pos.states| > 0 && |pos.displacement| > 0
    requires IsSqrtOf(sqrt, NormSq(pos.states[|pos.states| - 1].p))
    ensures CalculateDrift(pos, knownDistance, sqrt).driftMagnitude == 0.0
        <==> pos.states[|pos.states| - 1].p == Zero
  {
    NormZeroIffZero(pos.states[|pos.states| - 1].p, sqrt);
  }

  /** The `improvement` entry. */
  datatype Improvement = Improvement(
    returnErrorReduction: real,
    returnErrorReductionPercent: real,
    maxDisplacementErrorReduction: real,
    maxDisplacementErrorReductionPercent: real)

  /** `(raw − cal) / raw * 100 if raw > 0 else 0`. */
  function ReductionPercent(raw: real, cal: real): (r: real)
    ensures raw > 0.0 ==> r * raw == (raw - cal) * 100.0
    ensures raw <= 0.0 ==> r == 0.0
  {
    if raw > 0.0 then
      QuotientTimes(raw - cal, raw, 100.0);
      (raw - cal) / raw * 100.0
    else 0.0
  }

  /** The `improvement` dictionary of `save_results`. It reads
      `return_error` and `max_displacement_error` from both metrics, which
      exist only when a known distance was given; otherwise the lookup
      raises, the exception handler reports the failure and nothing is
      saved (`None`). */
  function ComputeImprovement(raw: DriftMetrics, cal: DriftMetrics): (r: Option<Improvement>)
    ensures r.Some? <==> raw.known.Some? && cal.known.Some?
    ensures r.Some? ==>
      var rk := raw.known.value;
      var ck := cal.known.value;
      r.value.returnErrorReduction + ck.returnError == rk.returnError
      && r.value.maxDisplacementErrorReduction + ck.maxDisplacementError == rk.maxDisplacementError
      && r.value.returnErrorReductionPercent == ReductionPercent(rk.returnError, ck.returnError)
      && r.value.maxDisplacementErrorReductionPercent
         == ReductionPercent(rk.maxDisplacementError, ck.maxDisplacementError)
  {
    if raw.known.Some? && cal.known.Some? then
      var rk := raw.known.value;
      var ck := cal.known.value;
      Some(Improvement(
        rk.returnError - ck.returnError,
        ReductionPercent(rk.returnError, ck.returnError),
        rk.maxDisplacementError - ck.maxDisplacementError,
        ReductionPercent(rk.maxDisplacementError, ck.maxDisplacementError)))
    else None
  }

  /** Swapping the two metrics negates both absolute reductions. */
  lemma ReductionAntisymmetric(raw: DriftMetrics, cal: DriftMetrics)
    requires raw.known.Some? && cal.known.Some?
    ensures ComputeImprovement(raw, cal).value.returnErrorReduction
         == -ComputeImprovement(cal, raw).value.returnErrorReduction
    ensures ComputeImprovement(raw, cal).value.maxDisplacementErrorReduction
         == -ComputeImprovement(cal, raw).value.maxDisplacementErrorReduction
  {
  }

  /** With a positive raw error, the percentage is positive exactly when
      calibration reduced the error and zero exactly when it left it
      unchanged; for a non-negative calibrated error it is at most 100, with
      100 exactly when calibration removed the error. */
  lemma ReductionPercentMeaning(raw: real, cal: real)
    requires raw > 0.0
    ensures ReductionPercent(raw, cal) > 0.0 <==> cal < raw
    ensures ReductionPercent(raw, cal) == 0.0 <==> cal == raw
    ensures 0.0 <= cal ==> ReductionPercent(raw, cal) <= 100.0
    ensures ReductionPercent(raw, cal) == 100.0 <==> cal == 0.0
  {
    var r := ReductionPercent(raw, cal);
    assert r * raw == (raw - cal) * 100.0;
    PositiveFactor(r, raw);
    PositiveFactor(r - 100.0, raw);
    assert (r - 100.0) * raw == r * raw - 100.0 * raw;
  }

  /** Multiplying by a positive number keeps the sign. */
  lemma PositiveFactor(x: real, k: real)
    requires k > 0.0
    ensures x > 0.0 <==> x * k > 0.0
    ensures x == 0.0 <==> x * k == 0.0
    ensures x < 0.0 <==> x * k < 0.0
  {
    if x > 0.0 {
      assert x * k > 0.0;
    } else if x < 0.0 {
      assert (-x) * k > 0.0;
    }
  }
}

=== FILE: ellipsoid_fit.dfy ===
/** The algebra of `fit_ellipsoid` (assignment-1-imu/calculate_params.py):
    the least-squares design matrix for the quadric
      a·x² + b·y² + c·z² + 2d·xy + 2e·xz + 2f·yz + 2g·x + 2h·y + 2i·z = 1,
    the homogeneous 4×4 matrix assembled from the fitted coefficients
    `u = [a, b, c, d, e, f, g, h, i]`, the centre equation, and the
    translation and normalisation that produce the 3×3 matrix handed to the
    eigen-solver. The solver calls themselves (`lstsq`, `solve`, `eig`) are
    outside the model: the coefficients and the centre enter as parameters. */
module EllipsoidFit {
  import opened LinAlg

  /** One row of the design matrix `D` for the point `p`. */
  function DesignRow(p: Vec3): (row: seq<real>)
    ensures |row| == 9
  {
    [p.x * p.x, p.y * p.y, p.z * p.z,
     2.0 * p.x * p.y, 2.0 * p.x * p.z, 2.0 * p.y * p.z,
     2.0 * p.x, 2.0 * p.y, 2.0 * p.z]
  }

  /** The inner product of a design row with the coefficient vector. */
  function RowDot(row: seq<real>, u: seq<real>): real
    requires |row| == 9 && |u| == 9
  {
    row[0] * u[0] + row[1] * u[1] + row[2] * u[2]
    + row[3] * u[3] + row[4] * u[4] + row[5] * u[5]
    + row[6] * u[6] + row[7] * u[7] + row[8] * u[8]
  }

  /** The design matrix `D`, one row per point. */
  function DesignMatrix(points: seq<Vec3>): (d: seq<seq<real>>)
    ensures |d| == |points|
    ensures forall i :: 0 <= i < |points| ==> |d[i]| == 9
  {
    seq(|points|, i requires 0 <= i < |points| => DesignRow(points[i]))
  }

  /** The right-hand side `b`: one 1 per point. */
  function Target(points: seq<Vec3>): (b: seq<real>)
    ensures |b| == |points|
  {
    seq(|points|, i requires 0 <= i < |points| => 1.0)
  }

  /** Entry `i` of the least-squares residual `D·u − b`. */
  function FitResidual(d: seq<seq<real>>, b: seq<real>, u: seq<real>, i: nat): real
    requires |u| == 9 && i < |d| && i < |b| && |d[i]| == 9
  {
    RowDot(d[i], u) - b[i]
  }

  /** The homogeneous quadric matrix `A` built from the fitted coefficients. */
  function QuadricMatrix(u: seq<real>): (a: Mat4)
    requires |u| == 9
    ensures Symmetric4(a)
    ensures Corner(a) == -1.0
  {
    Mat4(Vec4(u[0], u[3], u[4], u[6]),
         Vec4(u[3], u[1], u[5], u[7]),
         Vec4(u[4], u[5], u[2], u[8]),
         Vec4(u[6], u[7], u[8], -1.0))
  }

  /** The residual of the fit at point `i` is the quadric form of `A` at
      `[p, 1]`: so a point the fit matches exactly lies on the quadric
      `[p, 1]ᵀ·A·[p, 1] = 0`, and the sign of the residual tells on which
      side of it the point lies. */
  lemma QuadricFormIsFitResidual(points: seq<Vec3>, u: seq<real>, i: nat)
    requires |u| == 9 && i < |points|
    ensures QuadForm4(QuadricMatrix(u), Homogeneous(points[i]))
         == FitResidual(DesignMatrix(points), Target(points), u, i)
  {
    var p := points[i];
    calc {
      QuadForm4(QuadricMatrix(u), Homogeneous(p));
      p.x * (u[0] * p.x + u[3] * p.y + u[4] * p.z + u[6])
      + p.y * (u[3] * p.x + u[1] * p.y + u[5] * p.z + u[7])
      + p.z * (u[4] * p.x + u[5] * p.y + u[2] * p.z + u[8])
      + (u[6] * p.x + u[7] * p.y + u[8] * p.z - 1.0);
      RowDot(DesignRow(p), u) - 1.0;
    }
  }

  /** `center` is what `np.linalg.solve(-A[:3, :3], A[:3, 3])` returns:
      a solution of `−A[:3, :3]·center = A[:3, 3]`. */
  ghost predicate IsCenter(a: Mat4, center: Vec3) {
    MatVec(ScaleMat3(-1.0, Block(a)), center) == LastColumnTop(a)
  }

  /** `m[3, :3]`: the first three entries of the last row. */
  function LastRowLeft(m: Mat4): Vec3 {
    Vec3(m.r3.x, m.r3.y, m.r3.z)
  }

  /** `T = np.eye(4); T[:3, 3] = center`: the identity with the centre in
      the last column. */
  function Translation(center: Vec3): Mat4 {
    Mat4(Vec4(1.0, 0.0, 0.0, center.x),
         Vec4(0.0, 1.0, 0.0, center.y),
         Vec4(0.0, 0.0, 1.0, center.z),
         Vec4(0.0, 0.0, 0.0, 1.0))
  }

  /** `T` moves the homogeneous point `[y, 1]` to `[y + center, 1]`. */
  lemma TranslationShifts(center: Vec3, y: Vec3)
    ensures MatVec4(Translation(center), Homogeneous(y)) == Homogeneous(Add(y, center))
  {
    Vec4Ext(MatVec4(Translation(center), Homogeneous(y)), Homogeneous(Add(y, center)));
  }

  /** `R = T.dot(A).dot(T.T)`, exactly as the code writes it. */
  function TranslateAsWritten(a: Mat4, center: Vec3): Mat4 {
    var t := Translation(center);
    Mul4(Mul4(t, a), Transpose4(t))
  }

  /** Whatever `A` and the centre are, the corner of `T·A·Tᵀ` is the corner of
      `A`, and its top-left block is `B + c·b'ᵀ + b·cᵀ + A[3,3]·c·cᵀ`, with
      `B = A[:3, :3]`, `b = A[:3, 3]` and `b' = A[3, :3]`. */
  lemma TranslateAsWrittenParts(a: Mat4, center: Vec3)
    ensures Corner(TranslateAsWritten(a, center)) == Corner(a)
    ensures Block(TranslateAsWritten(a, center))
         == AddMat3(AddMat3(AddMat3(Block(a), Outer(center, LastRowLeft(a))),
                            Outer(LastColumnTop(a), center)),
                    ScaleMat3(Corner(a), Outer(center, center)))
  {
    var ta := Mul4(Translation(center), a);
    TranslateRows(a, center);
    TranslateColumns(ta, center);
    var k := Corner(a);
    var v := AddMat3(Block(a), Outer(center, LastRowLeft(a)));
    var b := LastColumnTop(a);
    var s := LastColumnTop(ta);
    var r := Block(TranslateAsWritten(a, center));
    assert r == AddMat3(v, Outer(s, center));
    var shifted := Add(b, Scale(k, center));
    assert s == shifted;
    assert s.x == shifted.x == b.x + k * center.x;
    assert s.y == shifted.y == b.y + k * center.y;
    assert s.z == shifted.z == b.z + k * center.z;
    ShiftedRow(v.r0, s.x, b.x, k, center.x, center);
    ShiftedRow(v.r1, s.y, b.y, k, center.y, center);
    ShiftedRow(v.r2, s.z, b.z, k, center.z, center);
    Mat3Rows(r, AddMat3(AddMat3(v, Outer(b, center)), ScaleMat3(k, Outer(center, center))));
  }

  lemma ShiftedRow(v: Vec3, s: real, bi: real, k: real, ci: real, c: Vec3)
    requires s == bi + k * ci
    ensures Add(v, Scale(s, c)) == Add(Add(v, Scale(bi, c)), Scale(k, Scale(ci, c)))
  {
    Vec3Ext(Add(v, Scale(s, c)), Add(Add(v, Scale(bi, c)), Scale(k, Scale(ci, c))));
  }

  /** The first three coordinates of a 4-vector. */
  function Top(v: Vec4): Vec3 {
    Vec3(v.x, v.y, v.z)
  }

  /** Row `i < 3` of `T`: the unit row `i` with `k` in the last place. */
  function TranslationRow(i: nat, k: real): Vec4
    requires i < 3
  {
    if i == 0 then Vec4(1.0, 0.0, 0.0, k)
    else if i == 1 then Vec4(0.0, 1.0, 0.0, k)
    else Vec4(0.0, 0.0, 1.0, k)
  }

  function Row(a: Mat4, i: nat): Vec4
    requires i < 3
  {
    if i == 0 then a.r0 else if i == 1 then a.r1 else a.r2
  }

  /** Multiplying by `T` on the left adds `c` times the last row to the
      first three rows. */
  lemma TranslateRows(a: Mat4, center: Vec3)
    ensures Block(Mul4(Translation(center), a)) == AddMat3(Block(a), Outer(center, LastRowLeft(a)))
    ensures LastColumnTop(Mul4(Translation(center), a)) == Add(LastColumnTop(a), Scale(Corner(a), center))
    ensures Corner(Mul4(Translation(center), a)) == Corner(a)
  {
    var m := Mul4(Translation(center), a);
    TranslatedRow(a, 0, center.x);
    TranslatedRow(a, 1, center.y);
    TranslatedRow(a, 2, center.z);
    Vec4Ext(RowTimes4(Vec4(0.0, 0.0, 0.0, 1.0), a), a.r3);
    assert Block(m) == Mat3(Top(m.r0), Top(m.r1), Top(m.r2));
    assert Block(a) == Mat3(Top(a.r0), Top(a.r1), Top(a.r2));
    assert LastRowLeft(a) == Top(a.r3);
    Vec3Ext(LastColumnTop(m), Add(LastColumnTop(a), Scale(Corner(a), center)));
  }

  /** Row `i` of `T` times `A` is row `i` of `A` plus `k` times the last
      row of `A`. */
  lemma TranslatedRow(a: Mat4, i: nat, k: real)
    requires i < 3
    ensures Top(RowTimes4(TranslationRow(i, k), a)) == Add(Top(Row(a, i)), Scale(k, Top(a.r3)))
    ensures RowTimes4(TranslationRow(i, k), a).w == Row(a, i).w + k * a.r3.w
  {
    Vec3Ext(Top(RowTimes4(TranslationRow(i, k), a)), Add(Top(Row(a, i)), Scale(k, Top(a.r3))));
  }

  /** Multiplying by `Tᵀ` on the right adds the last column times `cᵀ` to
      the first three columns. */
  lemma TranslateColumns(x: Mat4, center: Vec3)
    ensures Block(Mul4(x, Transpose4(Translation(center)))) == AddMat3(Block(x), Outer(LastColumnTop(x), center))
    ensures Corner(Mul4(x, Transpose4(Translation(center)))) == Corner(x)
  {
    var m := Mul4(x, Transpose4(Translation(center)));
    TranslatedColumn(x.r0, center);
    TranslatedColumn(x.r1, center);
    TranslatedColumn(x.r2, center);
    TranslatedColumn(x.r3, center);
    assert Block(m) == Mat3(Top(m.r0), Top(m.r1), Top(m.r2));
    assert Block(x) == Mat3(Top(x.r0), Top(x.r1), Top(x.r2));
  }

  lemma TranslatedColumn(row: Vec4, center: Vec3)
    ensures Top(RowTimes4(row, Transpose4(Translation(center)))) == Add(Top(row), Scale(row.w, center))
    ensures RowTimes4(row, Transpose4(Translation(center))).w == row.w
  {
    Vec3Ext(Top(RowTimes4(row, Transpose4(Translation(center)))), Add(Top(row), Scale(row.w, center)));
  }

  /** `R[:3, :3] / -R[3, 3]`: the matrix whose eigen-decomposition gives the
      axes and radii. */
  function Normalise(r: Mat4): Mat3
    requires Corner(r) != 0.0
  {
    ScaleMat3(1.0 / -Corner(r), Block(r))
  }

  /** Multiplying the normalised block back by `−R[3, 3]` gives the block of
      `R`: the normalisation only rescales. */
  lemma NormaliseRescales(r: Mat4)
    requires Corner(r) != 0.0
    ensures ScaleMat3(-Corner(r), Normalise(r)) == Block(r)
  {
    var k := -Corner(r);
    assert k * (1.0 / k) == 1.0;
    var b := Block(r);
    var m := ScaleMat3(k, Normalise(r));
    assert m.r0.x == k * ((1.0 / k) * b.r0.x) == b.r0.x;
    assert m.r0.y == k * ((1.0 / k) * b.r0.y) == b.r0.y;
    assert m.r0.z == k * ((1.0 / k) * b.r0.z) == b.r0.z;
    assert m.r1.x == k * ((1.0 / k) * b.r1.x) == b.r1.x;
    assert m.r1.y == k * ((1.0 / k) * b.r1.y) == b.r1.y;
    assert m.r1.z == k * ((1.0 / k) * b.r1.z) == b.r1.z;
    assert m.r2.x == k * ((1.0 / k) * b.r2.x) == b.r2.x;
    assert m.r2.y == k * ((1.0 / k) * b.r2.y) == b.r2.y;
    assert m.r2.z == k * ((1.0 / k) * b.r2.z) == b.r2.z;
    Mat3Ext(m, b);
  }

  /** The matrix `fit_ellipsoid` passes to `np.linalg.eig`, as written: since
      the corner of `R` is always −1, the normalisation divides by 1 and the
      result is `B + c·bᵀ + b·cᵀ − c·cᵀ`. */
  function EigenInput(u: seq<real>, center: Vec3): (m: Mat3)
    requires |u| == 9
    ensures
      var a := QuadricMatrix(u);
      var b := LastColumnTop(a);
      m == AddMat3(AddMat3(AddMat3(Block(a), Outer(center, b)), Outer(b, center)),
                   ScaleMat3(-1.0, Outer(center, center)))
  {
    var a := QuadricMatrix(u);
    TranslateAsWrittenParts(a, center);
    assert LastRowLeft(a) == LastColumnTop(a);
    Normalise(TranslateAsWritten(a, center))
  }

  /** The translation that moves the quadric's centre to the origin:
      `Tᵀ·A·T`, with the same `T`. */
  function TranslateToCenter(a: Mat4, center: Vec3): Mat4 {
    var t := Translation(center);
    Mul4(Transpose4(t), Mul4(a, t))
  }

  /** `Tᵀ·A·T` describes the same surface moved by `−center`: its form at
      `y` is the form of `A` at `y + center`. */
  lemma TranslateToCenterShifts(a: Mat4, center: Vec3, y: Vec3)
    ensures QuadForm4(TranslateToCenter(a, center), Homogeneous(y))
         == QuadForm4(a, Homogeneous(Add(y, center)))
  {
    var t := Translation(center);
    var h := Homogeneous(y);
    assert MatVec4(t, h) == Homogeneous(Add(y, center));
    MatVec4Mul(Transpose4(t), Mul4(a, t), h);
    MatVec4Mul(a, t, h);
    Dot4Transpose(t, h, MatVec4(a, MatVec4(t, h)));
  }

  /** Multiplying a row by `T` on the right keeps its first three entries
      and adds their product with the centre to the last one. */
  lemma RowTimesTranslation(row: Vec4, center: Vec3)
    ensures Top(RowTimes4(row, Translation(center))) == Top(row)
    ensures RowTimes4(row, Translation(center)).w == Dot(Top(row), center) + row.w
  {
    Vec3Ext(Top(RowTimes4(row, Translation(center))), Top(row));
  }

  /** `A·T` keeps the first three columns of `A` and adds `A[:, :3]·c` to
      the last one. */
  lemma TranslateRight(a: Mat4, center: Vec3)
    ensures Block(Mul4(a, Translation(center))) == Block(a)
    ensures LastColumnTop(Mul4(a, Translation(center))) == Add(MatVec(Block(a), center), LastColumnTop(a))
    ensures LastRowLeft(Mul4(a, Translation(center))) == LastRowLeft(a)
  {
    var m := Mul4(a, Translation(center));
    RowTimesTranslation(a.r0, center);
    RowTimesTranslation(a.r1, center);
    RowTimesTranslation(a.r2, center);
    RowTimesTranslation(a.r3, center);
    assert Block(m) == Mat3(Top(m.r0), Top(m.r1), Top(m.r2));
    assert Block(a) == Mat3(Top(a.r0), Top(a.r1), Top(a.r2));
    assert LastRowLeft(m) == Top(m.r3) && LastRowLeft(a) == Top(a.r3);
    Vec3Ext(LastColumnTop(m), Add(MatVec(Block(a), center), LastColumnTop(a)));
  }

  /** `Tᵀ·X` keeps the first three rows of `X` and adds `cᵀ·X[:3, :]` to
      the last one. */
  lemma TranslateLeft(x: Mat4, center: Vec3)
    ensures Block(Mul4(Transpose4(Translation(center)), x)) == Block(x)
    ensures LastColumnTop(Mul4(Transpose4(Translation(center)), x)) == LastColumnTop(x)
    ensures LastRowLeft(Mul4(Transpose4(Translation(center)), x)) == Add(RowTimes(center, Block(x)), LastRowLeft(x))
  {
    var m := Mul4(Transpose4(Translation(center)), x);
    Vec4Ext(m.r0, x.r0);
    Vec4Ext(m.r1, x.r1);
    Vec4Ext(m.r2, x.r2);
    Vec3Ext(LastRowLeft(m), Add(RowTimes(center, Block(x)), LastRowLeft(x)));
  }

  /** The block of a symmetric matrix is symmetric. */
  lemma SymmetricBlock(a: Mat4)
    requires Symmetric4(a)
    ensures Transpose3(Block(a)) == Block(a)
    ensures LastRowLeft(a) == LastColumnTop(a)
  {
    assert Transpose4(a).r0 == a.r0 && Transpose4(a).r1 == a.r1;
    assert Transpose4(a).r2 == a.r2 && Transpose4(a).r3 == a.r3;
    Mat3Ext(Transpose3(Block(a)), Block(a));
  }

  lemma CancelNegated(v: Vec3, b: Vec3)
    requires Scale(-1.0, v) == b
    ensures Add(v, b) == Zero
  {
    Vec3Ext(Add(v, b), Zero);
  }

  /** At the centre the translated symmetric quadric has no linear terms,
      and its quadratic part is unchanged. */
  lemma TranslateToCenterStructure(a: Mat4, center: Vec3)
    requires Symmetric4(a) && IsCenter(a, center)
    ensures Block(TranslateToCenter(a, center)) == Block(a)
    ensures LastColumnTop(TranslateToCenter(a, center)) == Zero
    ensures LastRowLeft(TranslateToCenter(a, center)) == Zero
  {
    var x := Mul4(a, Translation(center));
    TranslateRight(a, center);
    TranslateLeft(x, center);
    MatVecScale(-1.0, Block(a), center);
    CancelNegated(MatVec(Block(a), center), LastColumnTop(a));
    SymmetricBlock(a);
    RowTimesTranspose(center, Block(a));
  }

  /** The form of a 4×4 matrix at `[y, 1]`, split into its quadratic,
      linear and constant parts. */
  lemma QuadForm4Split(m: Mat4, y: Vec3)
    ensures QuadForm4(m, Homogeneous(y))
         == QuadForm3(Block(m), y) + Dot(LastColumnTop(m), y) + Dot(LastRowLeft(m), y) + Corner(m)
  {
  }

  /** At a true centre `c` the constant term of `Tᵀ·A·T` is `b·c − 1`,
      where `b` is the linear part of the fitted coefficients: the form of
      `A` at `c` loses `c·b` to the quadratic part and gains `2·b·c` from the
      linear part. */
  lemma CornerAtCenter(u: seq<real>, center: Vec3)
    requires |u| == 9 && IsCenter(QuadricMatrix(u), center)
    ensures Corner(TranslateToCenter(QuadricMatrix(u), center))
         == Dot(LastColumnTop(QuadricMatrix(u)), center) - 1.0
  {
    var a := QuadricMatrix(u);
    var b := LastColumnTop(a);
    var m := MatVec(Block(a), center);
    CornerIsFormAtCenter(a, center);
    QuadForm4Split(a, center);
    SymmetricBlock(a);
    MatVecScale(-1.0, Block(a), center);
    assert Scale(-1.0, m) == b;
    DotScale(-1.0, m, center);
    DotComm(m, center);
    DotComm(b, center);
    assert QuadForm3(Block(a), center) == -Dot(b, center);
  }

  /** The eigen-solver input with the translation done as `Tᵀ·A·T`. It
      needs a centre whose constant term `b·c − 1` (`CornerAtCenter`) is not
      zero. */
  function EigenInputCorrected(u: seq<real>, center: Vec3): Mat3
    requires |u| == 9 && IsCenter(QuadricMatrix(u), center)
    requires Dot(LastColumnTop(QuadricMatrix(u)), center) != 1.0
  {
    CornerAtCenter(u, center);
    Normalise(TranslateToCenter(QuadricMatrix(u), center))
  }

  /** With the translation done as `Tᵀ·A·T`, the normalised matrix `M`
      describes the fitted surface seen from its centre: `y` satisfies
      `yᵀ·M·y = 1` exactly when `y + center` lies on the fitted quadric. */
  lemma CenteredQuadricIsUnitLevelSet(u: seq<real>, center: Vec3, y: Vec3)
    requires |u| == 9
    requires IsCenter(QuadricMatrix(u), center)
    requires Dot(LastColumnTop(QuadricMatrix(u)), center) != 1.0
    ensures QuadForm3(EigenInputCorrected(u, center), y) == 1.0
        <==> QuadForm4(QuadricMatrix(u), Homogeneous(Add(y, center))) == 0.0
  {
    var a := QuadricMatrix(u);
    var r := TranslateToCenter(a, center);
    var k := Corner(r);
    CornerAtCenter(u, center);
    TranslateToCenterShifts(a, center, y);
    TranslateToCenterStructure(a, center);
    QuadForm4Split(r, y);
    QuadForm3Scale(1.0 / -k, Block(r), y);
    var q := QuadForm3(Block(r), y);
    assert QuadForm4(a, Homogeneous(Add(y, center))) == q + k;
    assert QuadForm3(EigenInputCorrected(u, center), y) == (1.0 / -k) * q;
    assert (1.0 / -k) * q == 1.0 <==> q == -k;
  }

  /** Stated about the raw point `p`: `p` satisfies the fitted equation
      exactly when its offset from the centre lies on the unit level set of
      the corrected eigen-input. */
  lemma FittedPointOnUnitLevel(u: seq<real>, center: Vec3, p: Vec3)
    requires |u| == 9
    requires IsCenter(QuadricMatrix(u), center)
    requires Dot(LastColumnTop(QuadricMatrix(u)), center) != 1.0
    ensures QuadForm3(EigenInputCorrected(u, center), Sub(p, center)) == 1.0
        <==> QuadForm4(QuadricMatrix(u), Homogeneous(p)) == 0.0
  {
    var y := Sub(p, center);
    Vec3Ext(Add(y, center), p);
    CenteredQuadricIsUnitLevelSet(u, center, y);
  }

  /** The coefficients of the sphere of radius √2 about (1, 0, 0):
      `x² + y² + z² − 2x = 1`. */
  const OffsetSphere: seq<real> := [1.0, 1.0, 1.0, 0.0, 0.0, 0.0, -1.0, 0.0, 0.0]

  /** The homogeneous matrix of `OffsetSphere`. */
  const OffsetSphereMatrix: Mat4 :=
    Mat4(Vec4(1.0, 0.0, 0.0, -1.0), Vec4(0.0, 1.0, 0.0, 0.0),
         Vec4(0.0, 0.0, 1.0, 0.0), Vec4(-1.0, 0.0, 0.0, -1.0))

  /** The sphere's centre. */
  const OffsetSphereCenter: Vec3 := Vec3(1.0, 0.0, 0.0)

  /** The coefficients `OffsetSphere` fit the sphere exactly: a point lies on
      their quadric exactly when its squared distance from (1, 0, 0) is 2. */
  lemma OffsetSphereFit(p: Vec3)
    ensures QuadForm4(QuadricMatrix(OffsetSphere), Homogeneous(p)) == 0.0
        <==> NormSq(Sub(p, Vec3(1.0, 0.0, 0.0))) == 2.0
  {
    var a := QuadricMatrix(OffsetSphere);
    OffsetSphereQuadric();
    QuadForm4Split(a, p);
    assert QuadForm4(a, Homogeneous(p)) == NormSq(Sub(p, Vec3(1.0, 0.0, 0.0))) - 2.0;
  }

  /** The coefficients `OffsetSphere` assemble into `OffsetSphereMatrix`. */
  lemma OffsetSphereQuadric()
    ensures |OffsetSphere| == 9
    ensures QuadricMatrix(OffsetSphere) == OffsetSphereMatrix
  {
    var u := OffsetSphere;
    assert u[0] == 1.0 && u[1] == 1.0 && u[2] == 1.0;
    assert u[3] == 0.0 && u[4] == 0.0 && u[5] == 0.0;
    assert u[6] == -1.0 && u[7] == 0.0 && u[8] == 0.0;
    var a := QuadricMatrix(u);
    var e := OffsetSphereMatrix;
    Vec4Ext(a.r0, e.r0);
    Vec4Ext(a.r1, e.r1);
    Vec4Ext(a.r2, e.r2);
    Vec4Ext(a.r3, e.r3);
  }

  /** The centre equation holds for a matrix with the sphere's first row and
      the centre (1, 0, 0). */
  lemma SphereCenter(a: Mat4, c: Vec3)
    requires a.r0 == Vec4(1.0, 0.0, 0.0, -1.0) && a.r1 == Vec4(0.0, 1.0, 0.0, 0.0)
    requires a.r2 == Vec4(0.0, 0.0, 1.0, 0.0)
    requires c == Vec3(1.0, 0.0, 0.0)
    ensures IsCenter(a, c)
  {
    Vec3Ext(MatVec(ScaleMat3(-1.0, Block(a)), c), LastColumnTop(a));
  }

  /** The first diagonal entry of `T·A·Tᵀ` for the offset sphere. */
  lemma SphereAsWrittenEntry(u: seq<real>, c: Vec3)
    requires |u| == 9 && u[0] == 1.0 && u[6] == -1.0 && c.x == 1.0
    ensures EigenInput(u, c).r0.x == -2.0
  {
    var b := LastColumnTop(QuadricMatrix(u));
    assert b.x == -1.0;
    assert Outer(c, b).r0.x == -1.0 && Outer(b, c).r0.x == -1.0;
    assert Outer(c, c).r0.x == 1.0;
  }

  /** The form of `A` at the centre (1, 0, 0) of the offset sphere. */
  lemma SphereFormAtCenter(a: Mat4, c: Vec3)
    requires a.r0 == Vec4(1.0, 0.0, 0.0, -1.0) && a.r3 == Vec4(-1.0, 0.0, 0.0, -1.0)
    requires c == Vec3(1.0, 0.0, 0.0)
    ensures QuadForm4(a, Homogeneous(c)) == -2.0
  {
    QuadForm4Split(a, c);
    FormAtFirstAxis(Block(a));
    DotFirstAxis(LastColumnTop(a));
    DotFirstAxis(LastRowLeft(a));
  }

  lemma DotFirstAxis(v: Vec3)
    ensures Dot(v, Vec3(1.0, 0.0, 0.0)) == v.x
  {
  }

  /** The form of any 3×3 matrix at the first unit vector is its first
      diagonal entry. */
  lemma FormAtFirstAxis(m: Mat3)
    ensures QuadForm3(m, Vec3(1.0, 0.0, 0.0)) == m.r0.x
  {
  }

  /** The corner of `Tᵀ·A·T` is the form of `A` at the centre. */
  lemma CornerIsFormAtCenter(a: Mat4, c: Vec3)
    ensures Corner(TranslateToCenter(a, c)) == QuadForm4(a, Homogeneous(c))
  {
    TranslateToCenterShifts(a, c, Zero);
    Vec3Ext(Add(Zero, c), c);
    QuadForm4Split(TranslateToCenter(a, c), Zero);
  }

  lemma ScaleDiag(k: real, d: Vec3)
    ensures ScaleMat3(k, Diag(d)) == Diag(Scale(k, d))
  {
    Mat3Ext(ScaleMat3(k, Diag(d)), Diag(Scale(k, d)));
  }

  /** The matrix of the offset sphere, stated on variables so that the
      proofs below stay symbolic. */
  predicate IsOffsetSphere(u: seq<real>, a: Mat4, c: Vec3) {
    |u| == 9 && QuadricMatrix(u) == a
    && a.r0 == Vec4(1.0, 0.0, 0.0, -1.0) && a.r1 == Vec4(0.0, 1.0, 0.0, 0.0)
    && a.r2 == Vec4(0.0, 0.0, 1.0, 0.0) && a.r3 == Vec4(-1.0, 0.0, 0.0, -1.0)
    && c == Vec3(1.0, 0.0, 0.0)
  }

  lemma OffsetSphereIs()
    ensures IsOffsetSphere(OffsetSphere, OffsetSphereMatrix, OffsetSphereCenter)
  {
    OffsetSphereQuadric();
  }

  lemma SphereAsWrittenAt(u: seq<real>, a: Mat4, c: Vec3)
    requires IsOffsetSphere(u, a, c)
    ensures IsCenter(QuadricMatrix(u), c)
    ensures EigenInput(u, c).r0.x == -2.0
    ensures QuadForm3(EigenInput(u, c), Vec3(1.0, 0.0, 0.0)) < 0.0
  {
    SphereCenter(a, c);
    SphereAsWrittenEntry(u, c);
    FormAtFirstAxis(EigenInput(u, c));
  }

  lemma SphereCornerAt(u: seq<real>, a: Mat4, c: Vec3)
    requires IsOffsetSphere(u, a, c)
    ensures Corner(TranslateToCenter(QuadricMatrix(u), c)) == -2.0
  {
    SphereFormAtCenter(a, c);
    CornerIsFormAtCenter(a, c);
  }

  lemma SphereBlockAt(a: Mat4)
    requires a.r0 == Vec4(1.0, 0.0, 0.0, -1.0) && a.r1 == Vec4(0.0, 1.0, 0.0, 0.0)
    requires a.r2 == Vec4(0.0, 0.0, 1.0, 0.0)
    ensures ScaleMat3(0.5, Block(a)) == Diag(Vec3(0.5, 0.5, 0.5))
  {
    Mat3Ext(Block(a), Diag(Vec3(1.0, 1.0, 1.0)));
    ScaleDiag(0.5, Vec3(1.0, 1.0, 1.0));
    Vec3Ext(Scale(0.5, Vec3(1.0, 1.0, 1.0)), Vec3(0.5, 0.5, 0.5));
  }

  lemma NormaliseHalf(r: Mat4)
    requires Corner(r) == -2.0
    ensures Normalise(r) == ScaleMat3(0.5, Block(r))
  {
    assert 1.0 / -Corner(r) == 0.5;
  }

  lemma CorrectedChain(u: seq<real>, a: Mat4, c: Vec3)
    requires |u| == 9 && QuadricMatrix(u) == a && IsCenter(a, c)
    requires Dot(LastColumnTop(a), c) == -1.0
    requires ScaleMat3(0.5, Block(a)) == Diag(Vec3(0.5, 0.5, 0.5))
    ensures EigenInputCorrected(u, c) == Diag(Vec3(0.5, 0.5, 0.5))
  {
    CornerAtCenter(u, c);
    TranslateToCenterStructure(a, c);
    NormaliseHalf(TranslateToCenter(a, c));
  }

  lemma SphereCorrectedAt(u: seq<real>, a: Mat4, c: Vec3)
    requires IsOffsetSphere(u, a, c)
    ensures IsCenter(QuadricMatrix(u), c)
    ensures Dot(LastColumnTop(QuadricMatrix(u)), c) == -1.0
    ensures Corner(TranslateToCenter(QuadricMatrix(u), c)) == -2.0
    ensures EigenInputCorrected(u, c) == Diag(Vec3(0.5, 0.5, 0.5))
  {
    SphereCornerAt(u, a, c);
    SphereCenter(a, c);
    SphereBlockAt(a);
    CorrectedChain(u, a, c);
  }

  /** A counterexample to the translation as written: for the sphere of
      radius √2 about (1, 0, 0), fitted exactly (`OffsetSphereFit`) and with
      its true centre, the matrix handed to `eig` has −2 as its first
      diagonal entry, so its form is negative along the x axis: it has a
      negative eigenvalue, and the radius `1/sqrt` of that is NaN. */
  lemma OffsetSphereAsWritten()
    ensures IsCenter(QuadricMatrix(OffsetSphere), OffsetSphereCenter)
    ensures EigenInput(OffsetSphere, OffsetSphereCenter).r0.x == -2.0
    ensures QuadForm3(EigenInput(OffsetSphere, OffsetSphereCenter), Vec3(1.0, 0.0, 0.0)) < 0.0
  {
    OffsetSphereIs();
    SphereAsWrittenAt(OffsetSphere, OffsetSphereMatrix, OffsetSphereCenter);
  }

  /** With `Tᵀ·A·T` the same input has corner −2 and yields `I/2`, whose
      eigenvalue 1/2 gives the radius `1/sqrt(1/2) = √2`. */
  lemma OffsetSphereCorrected()
    ensures IsCenter(QuadricMatrix(OffsetSphere), OffsetSphereCenter)
    ensures Dot(LastColumnTop(QuadricMatrix(OffsetSphere)), OffsetSphereCenter) == -1.0
    ensures Corner(TranslateToCenter(QuadricMatrix(OffsetSphere), OffsetSphereCenter)) == -2.0
    ensures EigenInputCorrected(OffsetSphere, OffsetSphereCenter) == Diag(Vec3(0.5, 0.5, 0.5))
  {
    OffsetSphereIs();
    SphereCorrectedAt(OffsetSphere, OffsetSphereMatrix, OffsetSphereCenter);
  }
}

=== FILE: integration.dfy ===
/** `calculate_position` and `calculate_position_with_zupt` in
    `assignment-1-imu/position.py`: velocity and position by the trapezoidal
    rule, per axis, from rest at the first sample; in the zero-velocity-update
    (ZUPT) variant the velocity of every sample flagged stationary is reset
    to zero. */
module Integration {
  import opened LinAlg
  import opened Wrappers
  import opened Samples
  import opened Stationary

  /** Velocity and position at one sample (`vx, vy, vz`, `px, py, pz`). */
  datatype State = State(v: Vec3, p: Vec3)

  /** Both arrays start as `np.zeros(n)`. */
  const Rest: State := State(Zero, Zero)

  /** One trapezoidal update of one axis: `prev + 0.5 * (lo + hi) * dt`. */
  function TrapezoidRule(prev: real, lo: real, hi: real, dt: real): real {
    prev + 0.5 * (lo + hi) * dt
  }

  /** The update applied to each axis. */
  function Trapezoid(prev: Vec3, lo: Vec3, hi: Vec3, dt: real): Vec3 {
    Vec3(TrapezoidRule(prev.x, lo.x, hi.x, dt),
         TrapezoidRule(prev.y, lo.y, hi.y, dt),
         TrapezoidRule(prev.z, lo.z, hi.z, dt))
  }

  /** The loop body for one index: the new velocity from the two
      accelerations (or zero under a reset), then the new position from the
      two velocities. */
  function Step(s: State, a0: Vec3, a1: Vec3, dt: real, reset: bool): State {
    var v := if reset then Zero else Trapezoid(s.v, a0, a1, dt);
    State(v, Trapezoid(s.p, s.v, v, dt))
  }

  /** The integration loop over `range(1, n)` with `dt = time[i] − time[i−1]`
      and the velocity reset wherever `reset[i]` holds (never, in plain
      mode). Defined on prefixes: the states of the first `n − 1` samples,
      then one more step. */
  function Trajectory(ts: seq<real>, accs: seq<Vec3>, reset: seq<bool>): (states: seq<State>)
    requires |ts| == |accs| == |reset|
    ensures |states| == |ts|
    ensures |ts| > 0 ==> states[0] == Rest
    decreases |ts|
  {
    if |ts| == 0 then []
    else if |ts| == 1 then [Rest]
    else
      var n := |ts|;
      var prev := Trajectory(ts[..n - 1], accs[..n - 1], reset[..n - 1]);
      prev + [Step(prev[n - 2], accs[n - 2], accs[n - 1], ts[n - 1] - ts[n - 2], reset[n - 1])]
  }

  /** The states of a prefix of the samples are a prefix of the states. */
  lemma {:induction false} TrajectoryPrefix(ts: seq<real>, accs: seq<Vec3>, reset: seq<bool>, k: nat)
    requires |ts| == |accs| == |reset| && k <= |ts|
    ensures Trajectory(ts[..k], accs[..k], reset[..k]) == Trajectory(ts, accs, reset)[..k]
    decreases |ts|
  {
    var n := |ts|;
    if k < n {
      assert n >= 1;
      if n == 1 {
        assert k == 0;
      } else {
        TrajectoryPrefix(ts[..n - 1], accs[..n - 1], reset[..n - 1], k);
        assert ts[..n - 1][..k] == ts[..k];
        assert accs[..n - 1][..k] == accs[..k];
        assert reset[..n - 1][..k] == reset[..k];
      }
    } else {
      assert ts[..k] == ts && accs[..k] == accs && reset[..k] == reset;
    }
  }

  /** Every state after the first is one loop step from the one before. */
  lemma TrajectoryStep(ts: seq<real>, accs: seq<Vec3>, reset: seq<bool>, i: nat)
    requires |ts| == |accs| == |reset| && 1 <= i < |ts|
    ensures
      var states := Trajectory(ts, accs, reset);
      states[i] == Step(states[i - 1], accs[i - 1], accs[i], ts[i] - ts[i - 1], reset[i])
  {
    var full := Trajectory(ts, accs, reset);
    var pre := Trajectory(ts[..i + 1], accs[..i + 1], reset[..i + 1]);
    var pp := Trajectory(ts[..i], accs[..i], reset[..i]);
    TrajectoryPrefix(ts, accs, reset, i + 1);
    TrajectoryPrefix(ts, accs, reset, i);
    PrefixStep(ts, accs, reset, i);
    assert full[i] == pre[i];
    assert full[i - 1] == pp[i - 1];
  }

  lemma PrefixStep(ts: seq<real>, accs: seq<Vec3>, reset: seq<bool>, i: nat)
    requires |ts| == |accs| == |reset| && 1 <= i < |ts|
    ensures Trajectory(ts[..i + 1], accs[..i + 1], reset[..i + 1])[i]
      == Step(Trajectory(ts[..i], accs[..i], reset[..i])[i - 1], accs[i - 1], accs[i], ts[i] - ts[i - 1], reset[i])
  {
    Extend(ts, accs, reset, i);
  }

  /** The states of the first `i + 1` samples extend those of the first `i`
      by one step. */
  lemma Extend(ts: seq<real>, accs: seq<Vec3>, reset: seq<bool>, i: nat)
    requires |ts| == |accs| == |reset| && 1 <= i < |ts|
    ensures
      var prev := Trajectory(ts[..i], accs[..i], reset[..i]);
      Trajectory(ts[..i + 1], accs[..i + 1], reset[..i + 1])
        == prev + [Step(prev[i - 1], accs[i - 1], accs[i], ts[i] - ts[i - 1], reset[i])]
  {
    var t1, a1, r1 := ts[..i + 1], accs[..i + 1], reset[..i + 1];
    LastStep(t1, a1, r1);
    assert t1[..i] == ts[..i];
    assert a1[..i] == accs[..i];
    assert r1[..i] == reset[..i];
    assert t1[i] == ts[i] && t1[i - 1] == ts[i - 1];
    assert a1[i] == accs[i] && a1[i - 1] == accs[i - 1];
    assert r1[i] == reset[i];
  }

  /** The states extend those of all but the last sample by one step. */
  lemma LastStep(ts: seq<real>, accs: seq<Vec3>, reset: seq<bool>)
    requires |ts| == |accs| == |reset| && 2 <= |ts|
    ensures
      var n := |ts|;
      var prev := Trajectory(ts[..n - 1], accs[..n - 1], reset[..n - 1]);
      Trajectory(ts, accs, reset)
        == prev + [Step(prev[n - 2], accs[n - 2], accs[n - 1], ts[n - 1] - ts[n - 2], reset[n - 1])]
  {
  }

  /** The Python loop itself, with the arrays built front to back. */
  method IntegrateLoop(ts: seq<real>, accs: seq<Vec3>, reset: seq<bool>) returns (states: seq<State>)
    requires |ts| == |accs| == |reset|
    ensures states == Trajectory(ts, accs, reset)
  {
    var n := |ts|;
    if n == 0 {
      return [];
    }
    states := [Rest];
    var i := 1;
    while i < n
      invariant 1 <= i <= n
      invariant states == Trajectory(ts[..i], accs[..i], reset[..i])
    {
      Extend(ts, accs, reset, i);
      states := states + [Step(states[i - 1], accs[i - 1], accs[i], ts[i] - ts[i - 1], reset[i])];
      i := i + 1;
    }
    assert ts[..n] == ts && accs[..n] == accs && reset[..n] == reset;
  }

  /** No velocity reset at any sample: the plain integrator. */
  function NoResets(n: nat): (reset: seq<bool>)
    ensures |reset| == n && forall i :: 0 <= i < n ==> !reset[i]
  {
    seq(n, _ => false)
  }

  /** The `*_acc_mps2` columns: the accelerations as they are when the input
      is in m/s², multiplied by `g = 9.81` when it is in g. */
  function AccelerationsMps2(data: seq<Sample>, unitsInMps2: bool): (accs: seq<Vec3>)
    ensures |accs| == |data|
    ensures forall i :: 0 <= i < |data| ==>
      accs[i] == if unitsInMps2 then data[i].acc else Scale(StandardGravity, data[i].acc)
  {
    if unitsInMps2 then Accelerations(data)
    else seq(|data|, i requires 0 <= i < |data| => Scale(StandardGravity, data[i].acc))
  }

  /** The positions of a run of states. */
  function Positions(states: seq<State>): (ps: seq<Vec3>)
    ensures |ps| == |states| && forall i :: 0 <= i < |states| ==> ps[i] == states[i].p
  {
    seq(|states|, i requires 0 <= i < |states| => states[i].p)
  }

  /** The columns the integrators add to the table: the converted
      accelerations, the stationary flags (ZUPT only), velocity and position,
      and `displacement = sqrt(px² + py² + pz²)`. */
  datatype PositionData = PositionData(
    accMps2: seq<Vec3>,
    stationary: Option<seq<bool>>,
    states: seq<State>,
    displacement: seq<real>)

  /** The columns of one run of the integration loop over the times, the
      converted accelerations and the reset flags. */
  function Integrate(ts: seq<real>, accs: seq<Vec3>, reset: seq<bool>, stationary: Option<seq<bool>>,
                     sqrt: real -> real): (r: PositionData)
    requires |ts| == |accs| == |reset|
    ensures r.accMps2 == accs && r.stationary == stationary
    ensures r.states == Trajectory(ts, accs, reset)
    ensures |r.states| == |r.displacement| == |ts|
    ensures |ts| > 0 ==> r.states[0] == Rest
    ensures forall i :: 0 <= i < |ts| ==> r.displacement[i] == Norm(r.states[i].p, sqrt)
  {
    var states := Trajectory(ts, accs, reset);
    PositionData(accs, stationary, states, Magnitudes(Positions(states), sqrt))
  }

  /** `calculate_position_with_zupt`. Stationarity is detected on the
      table's own `x_acc`, `y_acc`, `z_acc` columns, before the conversion to
      m/s². */
  function CalculatePositionWithZupt(data: seq<Sample>, unitsInMps2: bool, accThreshold: real,
                                     windowSize: nat, sqrt: real -> real): (r: PositionData)
    ensures |r.states| == |r.displacement| == |r.accMps2| == |data|
    ensures r.accMps2 == AccelerationsMps2(data, unitsInMps2)
    ensures r.stationary == Some(DetectStationary(Accelerations(data), accThreshold, windowSize, sqrt))
    ensures |r.stationary.value| == |data|
    ensures |data| > 0 ==> r.states[0] == Rest
    ensures forall i :: 0 <= i < |data| ==> r.displacement[i] == Norm(r.states[i].p, sqrt)
  {
    var ts := Times(data);
    var accs := AccelerationsMps2(data, unitsInMps2);
    var flags := DetectStationary(Accelerations(data), accThreshold, windowSize, sqrt);
    assert |ts| == |data| && |accs| == |data| && |flags| == |data|;
    var r := Integrate(ts, accs, flags, Some(flags), sqrt);
    assert r.stationary.value == flags;
    r
  }

  /** `calculate_position`: the ZUPT variant when `APPLY_ZUPT` is set (with
      `ACC_THRESHOLD` and `WINDOW_SIZE`), the plain trapezoidal integrator
      otherwise. */
  function CalculatePosition(data: seq<Sample>, unitsInMps2: bool, applyZupt: bool, accThreshold: real,
                             windowSize: nat, sqrt: real -> real): (r: PositionData)
    ensures |r.states| == |r.displacement| == |r.accMps2| == |data|
    ensures r.accMps2 == AccelerationsMps2(data, unitsInMps2)
    ensures r.stationary.Some? <==> applyZupt
    ensures |data| > 0 ==> r.states[0] == Rest
    ensures forall i :: 0 <= i < |data| ==> r.displacement[i] == Norm(r.states[i].p, sqrt)
  {
    if applyZupt then
      var r := CalculatePositionWithZupt(data, unitsInMps2, accThreshold, windowSize, sqrt);
      assert r.stationary.Some?;
      r
    else
      var ts := Times(data);
      var accs := AccelerationsMps2(data, unitsInMps2);
      var reset := NoResets(|data|);
      assert |ts| == |data| && |accs| == |data| && |reset| == |data|;
      var r := Integrate(ts, accs, reset, None, sqrt);
      assert r.stationary.None?;
      r
  }

  /** Plain mode, per sample after the first: the trapezoidal velocity update
      from the converted accelerations and the trapezoidal position update
      from the velocities. */
  lemma PlainRecurrence(data: seq<Sample>, unitsInMps2: bool, accThreshold: real,
                        windowSize: nat, sqrt: real -> real, i: nat)
    requires 1 <= i < |data|
    ensures
      var r := CalculatePosition(data, unitsInMps2, false, accThreshold, windowSize, sqrt);
      var a := AccelerationsMps2(data, unitsInMps2);
      var dt := data[i].t - data[i - 1].t;
      r.states[i].v == Trapezoid(r.states[i - 1].v, a[i - 1], a[i], dt)
      && r.states[i].p == Trapezoid(r.states[i - 1].p, r.states[i - 1].v, r.states[i].v, dt)
  {
    var r := CalculatePosition(data, unitsInMps2, false, accThreshold, windowSize, sqrt);
    assert r.accMps2 == AccelerationsMps2(data, unitsInMps2);
    assert r.states == Trajectory(Times(data), r.accMps2, NoResets(|data|));
    TrajectoryStep(Times(data), r.accMps2, NoResets(|data|), i);
  }

  /** ZUPT mode, per sample after the first: a stationary sample's velocity
      is zero whatever came before; any other sample gets the plain velocity
      update; the position update is the plain one in both cases. */
  lemma ZuptRecurrence(data: seq<Sample>, unitsInMps2: bool, accThreshold: real,
                       windowSize: nat, sqrt: real -> real, i: nat)
    requires 1 <= i < |data|
    ensures
      var r := CalculatePositionWithZupt(data, unitsInMps2, accThreshold, windowSize, sqrt);
      var a := AccelerationsMps2(data, unitsInMps2);
      var stationary := DetectStationary(Accelerations(data), accThreshold, windowSize, sqrt);
      var dt := data[i].t - data[i - 1].t;
      (stationary[i] ==> r.states[i].v == Zero)
      && (!stationary[i] ==> r.states[i].v == Trapezoid(r.states[i - 1].v, a[i - 1], a[i], dt))
      && r.states[i].p == Trapezoid(r.states[i - 1].p, r.states[i - 1].v, r.states[i].v, dt)
  {
    var r := CalculatePositionWithZupt(data, unitsInMps2, accThreshold, windowSize, sqrt);
    var flags := r.stationary.value;
    assert r.states == Trajectory(Times(data), r.accMps2, flags);
    TrajectoryStep(Times(data), r.accMps2, flags, i);
  }

  /** The stationary flags do not depend on the units flag: they are
      computed on the unconverted columns. */
  lemma ZuptFlagsIgnoreUnits(data: seq<Sample>, accThreshold: real, windowSize: nat, sqrt: real -> real)
    ensures CalculatePositionWithZupt(data, true, accThreshold, windowSize, sqrt).stationary
         == CalculatePositionWithZupt(data, false, accThreshold, windowSize, sqrt).stationary
         == Some(DetectStationary(Accelerations(data), accThreshold, windowSize, sqrt))
  {
  }

  /** Where no sample is flagged stationary, the ZUPT integrator computes
      exactly the plain states. */
  lemma {:induction false} NoStationaryIsPlain(ts: seq<real>, accs: seq<Vec3>, reset: seq<bool>)
    requires |ts| == |accs| == |reset|
    requires forall i :: 0 <= i < |reset| ==> !reset[i]
    ensures Trajectory(ts, accs, reset) == Trajectory(ts, accs, NoResets(|ts|))
    decreases |ts|
  {
    var n := |ts|;
    if n > 1 {
      NoStationaryIsPlain(ts[..n - 1], accs[..n - 1], reset[..n - 1]);
      assert NoResets(|ts|)[..n - 1] == NoResets(n - 1);
    } else if n == 1 {
    }
  }

  /** With no acceleration anywhere, the sensor stays at rest: every
      velocity and position is zero, with or without resets. */
  lemma {:induction false} NoAccelerationStaysAtRest(ts: seq<real>, accs: seq<Vec3>, reset: seq<bool>)
    requires |ts| == |accs| == |reset|
    requires forall i :: 0 <= i < |accs| ==> accs[i] == Zero
    ensures forall i :: 0 <= i < |ts| ==> Trajectory(ts, accs, reset)[i] == Rest
    decreases |ts|
  {
    var n := |ts|;
    if n > 1 {
      NoAccelerationStaysAtRest(ts[..n - 1], accs[..n - 1], reset[..n - 1]);
      var prev := Trajectory(ts[..n - 1], accs[..n - 1], reset[..n - 1]);
      assert prev[n - 2] == Rest;
      var dt := ts[n - 1] - ts[n - 2];
      AtRestStep(accs[n - 2], accs[n - 1], dt, reset[n - 1]);
    }
  }

  lemma AtRestStep(a0: Vec3, a1: Vec3, dt: real, reset: bool)
    requires a0 == Zero && a1 == Zero
    ensures Step(Rest, a0, a1, dt, reset) == Rest
  {
  }

  /** With no time elapsed between two samples (`dt = 0`; the code has no
      guard against it) the plain integrator leaves velocity and position
      as they were. */
  lemma ZeroTimeStepKeepsState(ts: seq<real>, accs: seq<Vec3>, i: nat)
    requires |ts| == |accs| && 1 <= i < |ts| && ts[i] == ts[i - 1]
    ensures Trajectory(ts, accs, NoResets(|ts|))[i] == Trajectory(ts, accs, NoResets(|ts|))[i - 1]
  {
    TrajectoryStep(ts, accs, NoResets(|ts|), i);
  }

  /** The states scaled by `k`. */
  function ScaleState(k: real, s: State): State {
    State(Scale(k, s.v), Scale(k, s.p))
  }

  /** The trapezoidal rule is linear in its three values. */
  lemma TrapezoidRuleScale(k: real, p: real, a: real, b: real, dt: real)
    ensures TrapezoidRule(k * p, k * a, k * b, dt) == k * TrapezoidRule(p, a, b, dt)
  {
  }

  /** A trapezoidal update of scaled values is the scaled update. */
  lemma TrapezoidScale(k: real, prev: Vec3, lo: Vec3, hi: Vec3, dt: real)
    ensures Trapezoid(Scale(k, prev), Scale(k, lo), Scale(k, hi), dt) == Scale(k, Trapezoid(prev, lo, hi, dt))
  {
    var w := Trapezoid(Scale(k, prev), Scale(k, lo), Scale(k, hi), dt);
    var u := Scale(k, Trapezoid(prev, lo, hi, dt));
    assert w.x == u.x by { TrapezoidRuleScale(k, prev.x, lo.x, hi.x, dt); }
    assert w.y == u.y by { TrapezoidRuleScale(k, prev.y, lo.y, hi.y, dt); }
    assert w.z == u.z by { TrapezoidRuleScale(k, prev.z, lo.z, hi.z, dt); }
    Vec3Ext(w, u);
  }

  lemma StepScale(k: real, s: State, a0: Vec3, a1: Vec3, dt: real, reset: bool)
    ensures Step(ScaleState(k, s), Scale(k, a0), Scale(k, a1), dt, reset) == ScaleState(k, Step(s, a0, a1, dt, reset))
  {
    var v := if reset then Zero else Trapezoid(s.v, a0, a1, dt);
    if reset {
      ScaleZero(k);
    } else {
      TrapezoidScale(k, s.v, a0, a1, dt);
    }
    TrapezoidScale(k, s.p, s.v, v, dt);
  }

  /** Every acceleration scaled. */
  function ScaleAll(k: real, accs: seq<Vec3>): (r: seq<Vec3>)
    ensures |r| == |accs| && forall i :: 0 <= i < |accs| ==> r[i] == Scale(k, accs[i])
  {
    seq(|accs|, i requires 0 <= i < |accs| => Scale(k, accs[i]))
  }

  /** The integrators are linear in the accelerations: scaling every
      acceleration by `k` scales every velocity and position by `k`. */
  lemma {:induction false} TrajectoryScale(k: real, ts: seq<real>, accs: seq<Vec3>, reset: seq<bool>)
    requires |ts| == |accs| == |reset|
    ensures forall i :: 0 <= i < |ts| ==>
      Trajectory(ts, ScaleAll(k, accs), reset)[i] == ScaleState(k, Trajectory(ts, accs, reset)[i])
    decreases |ts|
  {
    var n := |ts|;
    if n == 1 {
      ScaleZero(k);
    } else if n > 1 {
      var scaled := ScaleAll(k, accs);
      TrajectoryScale(k, ts[..n - 1], accs[..n - 1], reset[..n - 1]);
      assert scaled[..n - 1] == ScaleAll(k, accs[..n - 1]);
      var prev := Trajectory(ts[..n - 1], accs[..n - 1], reset[..n - 1]);
      StepScale(k, prev[n - 2], accs[n - 2], accs[n - 1], ts[n - 1] - ts[n - 2], reset[n - 1]);
    }
  }

  /** Input in g: the states are 9.81 times the states integrated from the
      unconverted columns. */
  lemma GUnitsScaleStates(data: seq<Sample>, reset: seq<bool>)
    requires |reset| == |data|
    ensures forall i :: 0 <= i < |data| ==>
      Trajectory(Times(data), AccelerationsMps2(data, false), reset)[i]
        == ScaleState(StandardGravity, Trajectory(Times(data), Accelerations(data), reset)[i])
  {
    assert AccelerationsMps2(data, false) == ScaleAll(StandardGravity, Accelerations(data));
    TrajectoryScale(StandardGravity, Times(data), Accelerations(data), reset);
  }

  lemma FirstWorkedStep(s: State, a0: Vec3, a1: Vec3, dt: real)
    requires s == Rest && a0.x == 0.0 && a1.x == 2.0 && dt == 1.0
    ensures Step(s, a0, a1, dt, false).v.x == 1.0 && Step(s, a0, a1, dt, false).p.x == 0.5
  {
  }

  lemma SecondWorkedStep(s: State, a0: Vec3, a1: Vec3, dt: real)
    requires s.v.x == 1.0 && s.p.x == 0.5 && a0.x == 2.0 && a1.x == 0.0 && dt == 1.0
    ensures Step(s, a0, a1, dt, false).v.x == 2.0 && Step(s, a0, a1, dt, false).p.x == 2.0
  {
  }

  /** The integration loop on three samples one second apart with
      x-accelerations 0, 2, 0: x-velocity 0, 1, 2 and x-position 0, 0.5,
      2.0, whatever the other axes do. */
  lemma WorkedTrajectory(ts: seq<real>, accs: seq<Vec3>)
    requires ts == [0.0, 1.0, 2.0] && |accs| == 3
    requires accs[0].x == 0.0 && accs[1].x == 2.0 && accs[2].x == 0.0
    ensures
      var states := Trajectory(ts, accs, NoResets(3));
      states[0].v.x == 0.0 && states[1].v.x == 1.0 && states[2].v.x == 2.0
      && states[0].p.x == 0.0 && states[1].p.x == 0.5 && states[2].p.x == 2.0
  {
    var states := Trajectory(ts, accs, NoResets(3));
    assert states[1].v.x == 1.0 && states[1].p.x == 0.5 by {
      TrajectoryStep(ts, accs, NoResets(3), 1);
      FirstWorkedStep(states[0], accs[0], accs[1], ts[1] - ts[0]);
    }
    assert states[2].v.x == 2.0 && states[2].p.x == 2.0 by {
      TrajectoryStep(ts, accs, NoResets(3), 2);
      SecondWorkedStep(states[1], accs[1], accs[2], ts[2] - ts[1]);
    }
  }

  /** The same example through `calculate_position` with m/s² input and
      without ZUPT. */
  lemma WorkedExample(data: seq<Sample>, sqrt: real -> real)
    requires |data| == 3
    requires data[0].t == 0.0 && data[1].t == 1.0 && data[2].t == 2.0
    requires data[0].acc.x == 0.0 && data[1].acc.x == 2.0 && data[2].acc.x == 0.0
    ensures
      var states := CalculatePosition(data, true, false, 0.0, 0, sqrt).states;
      states[0].v.x == 0.0 && states[1].v.x == 1.0 && states[2].v.x == 2.0
      && states[0].p.x == 0.0 && states[1].p.x == 0.5 && states[2].p.x == 2.0
  {
    assert Times(data) == [0.0, 1.0, 2.0];
    WorkedTrajectory(Times(data), AccelerationsMps2(data, true));
  }
}

=== FILE: linalg.dfy ===
/** Fixed-size real vectors and matrices: the numpy arrays of shape (3,),
    (3, 3), (4,) and (4, 4) that the accelerometer code manipulates.
    Float64 is modelled by `real`. Matrices are stored by rows. */
module LinAlg {

  /** A 3-vector: an acceleration sample, a velocity, a position or a point. */
  datatype Vec3 = Vec3(x: real, y: real, z: real)

  const Zero: Vec3 := Vec3(0.0, 0.0, 0.0)

  function Add(a: Vec3, b: Vec3): Vec3 {
    Vec3(a.x + b.x, a.y + b.y, a.z + b.z)
  }

  function Sub(a: Vec3, b: Vec3): Vec3 {
    Vec3(a.x - b.x, a.y - b.y, a.z - b.z)
  }

  function Scale(k: real, a: Vec3): Vec3 {
    Vec3(k * a.x, k * a.y, k * a.z)
  }

  /** Componentwise division by a nonzero scalar, numpy's `v / k`. */
  function Divide(a: Vec3, k: real): Vec3
    requires k != 0.0
  {
    Vec3(a.x / k, a.y / k, a.z / k)
  }

  function Dot(a: Vec3, b: Vec3): real {
    a.x * b.x + a.y * b.y + a.z * b.z
  }

  /** Squared Euclidean norm `x² + y² + z²`. */
  function NormSq(a: Vec3): real {
    Dot(a, a)
  }

  /** Euclidean norm `sqrt(x² + y² + z²)`; the square root is supplied by the
      caller and left uninterpreted. */
  function Norm(a: Vec3, sqrt: real -> real): real {
    sqrt(NormSq(a))
  }

  /** `sqrt` behaves as the non-negative square root at `x`. */
  ghost predicate IsSqrtOf(sqrt: real -> real, x: real) {
    0.0 <= sqrt(x) && sqrt(x) * sqrt(x) == x
  }

  /** `np.sqrt(X**2 + Y**2 + Z**2)`: the norm of every vector of a series. */
  function Magnitudes(vs: seq<Vec3>, sqrt: real -> real): (ms: seq<real>)
    ensures |ms| == |vs|
    ensures forall i :: 0 <= i < |vs| ==> ms[i] == Norm(vs[i], sqrt)
  {
    seq(|vs|, i requires 0 <= i < |vs| => Norm(vs[i], sqrt))
  }

  /** Where `sqrt` is the square root, a magnitude is the non-negative root
      of the squared norm of its vector. */
  lemma MagnitudeIsRoot(vs: seq<Vec3>, sqrt: real -> real, i: nat)
    requires i < |vs| && IsSqrtOf(sqrt, NormSq(vs[i]))
    ensures 0.0 <= Magnitudes(vs, sqrt)[i]
    ensures Magnitudes(vs, sqrt)[i] * Magnitudes(vs, sqrt)[i] == NormSq(vs[i])
  {
  }

  /** Vectors with equal coordinates are equal. */
  lemma Vec3Ext(a: Vec3, b: Vec3)
    requires a.x == b.x && a.y == b.y && a.z == b.z
    ensures a == b
  {
  }

  lemma DotScale(k: real, a: Vec3, b: Vec3)
    ensures Dot(Scale(k, a), b) == k * Dot(a, b)
    ensures Dot(b, Scale(k, a)) == k * Dot(a, b)
  {
    calc {
      Dot(Scale(k, a), b);
      (k * a.x) * b.x + (k * a.y) * b.y + (k * a.z) * b.z;
      k * (a.x * b.x) + k * (a.y * b.y) + k * (a.z * b.z);
      k * Dot(a, b);
    }
  }

  /** A 3×3 matrix, by rows. */
  datatype Mat3 = Mat3(r0: Vec3, r1: Vec3, r2: Vec3)

  const Identity3: Mat3 := Mat3(Vec3(1.0, 0.0, 0.0), Vec3(0.0, 1.0, 0.0), Vec3(0.0, 0.0, 1.0))

  lemma IdentityMatVec(v: Vec3)
    ensures MatVec(Identity3, v) == v
  {
    Vec3Ext(MatVec(Identity3, v), v);
  }

  function Col0(m: Mat3): Vec3 { Vec3(m.r0.x, m.r1.x, m.r2.x) }
  function Col1(m: Mat3): Vec3 { Vec3(m.r0.y, m.r1.y, m.r2.y) }
  function Col2(m: Mat3): Vec3 { Vec3(m.r0.z, m.r1.z, m.r2.z) }

  function Transpose3(m: Mat3): Mat3 {
    Mat3(Col0(m), Col1(m), Col2(m))
  }

  /** Matrix times column vector, `m·v`. */
  function MatVec(m: Mat3, v: Vec3): Vec3 {
    Vec3(Dot(m.r0, v), Dot(m.r1, v), Dot(m.r2, v))
  }

  /** Row vector times matrix, `vᵀ·m`: the row-wise product numpy computes
      for `np.dot(points, m)`. */
  function RowTimes(v: Vec3, m: Mat3): Vec3 {
    Add(Add(Scale(v.x, m.r0), Scale(v.y, m.r1)), Scale(v.z, m.r2))
  }

  /** Matrix product `a·b`: row i is row i of `a` times `b`. */
  function Mul3(a: Mat3, b: Mat3): Mat3 {
    Mat3(RowTimes(a.r0, b), RowTimes(a.r1, b), RowTimes(a.r2, b))
  }

  /** `np.diag(d)`. */
  function Diag(d: Vec3): Mat3 {
    Mat3(Vec3(d.x, 0.0, 0.0), Vec3(0.0, d.y, 0.0), Vec3(0.0, 0.0, d.z))
  }

  function ScaleMat3(k: real, m: Mat3): Mat3 {
    Mat3(Scale(k, m.r0), Scale(k, m.r1), Scale(k, m.r2))
  }

  function AddMat3(a: Mat3, b: Mat3): Mat3 {
    Mat3(Add(a.r0, b.r0), Add(a.r1, b.r1), Add(a.r2, b.r2))
  }

  /** Outer product `a·bᵀ`. */
  function Outer(a: Vec3, b: Vec3): Mat3 {
    Mat3(Scale(a.x, b), Scale(a.y, b), Scale(a.z, b))
  }

  /** Quadratic form `vᵀ·m·v`. */
  function QuadForm3(m: Mat3, v: Vec3): real {
    Dot(v, MatVec(m, v))
  }

  lemma DotComm(a: Vec3, b: Vec3)
    ensures Dot(a, b) == Dot(b, a)
  {
  }

  lemma ScaledVec(w: Vec3, k: real, v: Vec3)
    requires w.x == k * v.x && w.y == k * v.y && w.z == k * v.z
    ensures w == Scale(k, v)
  {
    Vec3Ext(w, Scale(k, v));
  }

  /** Scaling a matrix scales its product with any vector. */
  lemma MatVecScale(k: real, m: Mat3, y: Vec3)
    ensures MatVec(ScaleMat3(k, m), y) == Scale(k, MatVec(m, y))
  {
    var w := MatVec(ScaleMat3(k, m), y);
    var v := MatVec(m, y);
    assert w.x == k * v.x by { DotScale(k, m.r0, y); }
    assert w.y == k * v.y by { DotScale(k, m.r1, y); }
    assert w.z == k * v.z by { DotScale(k, m.r2, y); }
    ScaledVec(w, k, v);
  }

  /** Scaling a matrix scales its quadratic form. */
  lemma QuadForm3Scale(k: real, m: Mat3, y: Vec3)
    ensures QuadForm3(ScaleMat3(k, m), y) == k * QuadForm3(m, y)
  {
    MatVecScale(k, m, y);
    DotScale(k, MatVec(m, y), y);
    DotComm(MatVec(m, y), y);
  }

  /** A matrix commutes with scaling its argument. */
  lemma MatVecLinear(k: real, m: Mat3, y: Vec3)
    ensures MatVec(m, Scale(k, y)) == Scale(k, MatVec(m, y))
  {
    var w := MatVec(m, Scale(k, y));
    var v := MatVec(m, y);
    assert w.x == k * v.x by { DotScale(k, y, m.r0); DotComm(y, m.r0); }
    assert w.y == k * v.y by { DotScale(k, y, m.r1); DotComm(y, m.r1); }
    assert w.z == k * v.z by { DotScale(k, y, m.r2); DotComm(y, m.r2); }
    ScaledVec(w, k, v);
  }

  /** Columns of `m` are orthonormal: `mᵀ·m = I`. */
  predicate Orthonormal(m: Mat3) {
    Mul3(Transpose3(m), m) == Identity3
  }

  /** Matrices with equal entries are equal. */
  lemma Mat3Ext(a: Mat3, b: Mat3)
    requires a.r0.x == b.r0.x && a.r0.y == b.r0.y && a.r0.z == b.r0.z
    requires a.r1.x == b.r1.x && a.r1.y == b.r1.y && a.r1.z == b.r1.z
    requires a.r2.x == b.r2.x && a.r2.y == b.r2.y && a.r2.z == b.r2.z
    ensures a == b
  {
    Vec3Ext(a.r0, b.r0);
    Vec3Ext(a.r1, b.r1);
    Vec3Ext(a.r2, b.r2);
  }

  /** Matrices with equal rows are equal. */
  lemma Mat3Rows(a: Mat3, b: Mat3)
    requires a.r0 == b.r0 && a.r1 == b.r1 && a.r2 == b.r2
    ensures a == b
  {
  }

  lemma SumTimes3(x0: real, x1: real, x2: real, y0: real, y1: real, y2: real, h: real)
    ensures (x0 * y0 + x1 * y1 + x2 * y2) * h == x0 * (y0 * h) + x1 * (y1 * h) + x2 * (y2 * h)
  {
  }

  lemma TimesSum3(k: real, a0: real, a1: real, a2: real, h0: real, h1: real, h2: real)
    ensures k * (a0 * h0 + a1 * h1 + a2 * h2) == k * (a0 * h0) + k * (a1 * h1) + k * (a2 * h2)
  {
  }

  lemma RowTimesDot(r: Vec3, b: Mat3, v: Vec3)
    ensures Dot(RowTimes(r, b), v) == Dot(r, MatVec(b, v))
  {
    SumTimes3(r.x, r.y, r.z, b.r0.x, b.r1.x, b.r2.x, v.x);
    SumTimes3(r.x, r.y, r.z, b.r0.y, b.r1.y, b.r2.y, v.y);
    SumTimes3(r.x, r.y, r.z, b.r0.z, b.r1.z, b.r2.z, v.z);
    TimesSum3(r.x, b.r0.x, b.r0.y, b.r0.z, v.x, v.y, v.z);
    TimesSum3(r.y, b.r1.x, b.r1.y, b.r1.z, v.x, v.y, v.z);
    TimesSum3(r.z, b.r2.x, b.r2.y, b.r2.z, v.x, v.y, v.z);
  }

  lemma MatVecMul3(a: Mat3, b: Mat3, v: Vec3)
    ensures MatVec(Mul3(a, b), v) == MatVec(a, MatVec(b, v))
  {
    RowTimesDot(a.r0, b, v);
    RowTimesDot(a.r1, b, v);
    RowTimesDot(a.r2, b, v);
  }

  /** `vᵀ·m` is `mᵀ·v`. */
  lemma RowTimesTranspose(v: Vec3, m: Mat3)
    ensures RowTimes(v, m) == MatVec(Transpose3(m), v)
  {
    Vec3Ext(RowTimes(v, m), MatVec(Transpose3(m), v));
  }

  lemma TransposeTwice(m: Mat3)
    ensures Transpose3(Transpose3(m)) == m
  {
    Mat3Ext(Transpose3(Transpose3(m)), m);
  }

  /** `yᵀ·(m·w) = (mᵀ·y)ᵀ·w`. */
  lemma DotMatVecTranspose(y: Vec3, m: Mat3, w: Vec3)
    ensures Dot(y, MatVec(m, w)) == Dot(MatVec(Transpose3(m), y), w)
  {
    RowTimesDot(y, m, w);
    RowTimesTranspose(y, m);
  }

  /** Coordinatewise product `d * z` (numpy's elementwise `*`). */
  function Pointwise(d: Vec3, z: Vec3): Vec3 {
    Vec3(d.x * z.x, d.y * z.y, d.z * z.z)
  }

  /** A diagonal matrix scales each coordinate by its own entry. */
  lemma DiagMatVec(d: Vec3, z: Vec3)
    ensures MatVec(Diag(d), z) == Pointwise(d, z)
  {
    Vec3Ext(MatVec(Diag(d), z), Pointwise(d, z));
  }

  lemma ZeroScale(a: real, v: Vec3)
    requires a == 0.0
    ensures Scale(a, v) == Zero
  {
    Vec3Ext(Scale(a, v), Zero);
  }

  lemma ScaleZero(k: real)
    ensures Scale(k, Zero) == Zero
  {
    Vec3Ext(Scale(k, Zero), Zero);
  }

  lemma AddZero(v: Vec3)
    ensures Add(Zero, v) == v && Add(v, Zero) == v
  {
    Vec3Ext(Add(Zero, v), v);
    Vec3Ext(Add(v, Zero), v);
  }

  lemma FirstRowTimes(k: real, m: Mat3)
    ensures RowTimes(Vec3(k, 0.0, 0.0), m) == Scale(k, m.r0)
  {
    ZeroScale(0.0, m.r1);
    ZeroScale(0.0, m.r2);
    AddZero(Scale(k, m.r0));
  }

  lemma SecondRowTimes(k: real, m: Mat3)
    ensures RowTimes(Vec3(0.0, k, 0.0), m) == Scale(k, m.r1)
  {
    ZeroScale(0.0, m.r0);
    ZeroScale(0.0, m.r2);
    AddZero(Scale(k, m.r1));
  }

  lemma ThirdRowTimes(k: real, m: Mat3)
    ensures RowTimes(Vec3(0.0, 0.0, k), m) == Scale(k, m.r2)
  {
    ZeroScale(0.0, m.r0);
    ZeroScale(0.0, m.r1);
    AddZero(Zero);
    AddZero(Scale(k, m.r2));
  }

  /** `m` with row `i` multiplied by `d[i]`. */
  function RowScaled(d: Vec3, m: Mat3): Mat3 {
    Mat3(Scale(d.x, m.r0), Scale(d.y, m.r1), Scale(d.z, m.r2))
  }

  /** `diag(d)·m` scales the rows of `m`. */
  lemma DiagMul(d: Vec3, m: Mat3)
    ensures Mul3(Diag(d), m) == RowScaled(d, m)
  {
    FirstRowTimes(d.x, m);
    SecondRowTimes(d.y, m);
    ThirdRowTimes(d.z, m);
    Mat3Rows(Mul3(Diag(d), m), RowScaled(d, m));
  }

  lemma PointwiseExt(w: Vec3, d: Vec3, v: Vec3)
    requires w.x == d.x * v.x && w.y == d.y * v.y && w.z == d.z * v.z
    ensures w == Pointwise(d, v)
  {
    Vec3Ext(w, Pointwise(d, v));
  }

  lemma RowScaledMatVec(d: Vec3, m: Mat3, y: Vec3)
    ensures MatVec(RowScaled(d, m), y) == Pointwise(d, MatVec(m, y))
  {
    var w := MatVec(RowScaled(d, m), y);
    var v := MatVec(m, y);
    assert w.x == d.x * v.x by { DotScale(d.x, m.r0, y); }
    assert w.y == d.y * v.y by { DotScale(d.y, m.r1, y); }
    assert w.z == d.z * v.z by { DotScale(d.z, m.r2, y); }
    PointwiseExt(w, d, v);
  }

  /** `(diag(d)·m)·y = d * (m·y)`. */
  lemma DiagMulMatVec(d: Vec3, m: Mat3, y: Vec3)
    ensures MatVec(Mul3(Diag(d), m), y) == Pointwise(d, MatVec(m, y))
  {
    DiagMul(d, m);
    RowScaledMatVec(d, m, y);
  }

  /** A 4-vector: a point in homogeneous coordinates. */
  datatype Vec4 = Vec4(x: real, y: real, z: real, w: real)

  function Dot4(a: Vec4, b: Vec4): real {
    a.x * b.x + a.y * b.y + a.z * b.z + a.w * b.w
  }

  /** `[p, 1]`. */
  function Homogeneous(p: Vec3): Vec4 {
    Vec4(p.x, p.y, p.z, 1.0)
  }

  lemma Vec4Ext(a: Vec4, b: Vec4)
    requires a.x == b.x && a.y == b.y && a.z == b.z && a.w == b.w
    ensures a == b
  {
  }

  /** A 4×4 matrix, by rows. */
  datatype Mat4 = Mat4(r0: Vec4, r1: Vec4, r2: Vec4, r3: Vec4)

  function Transpose4(m: Mat4): Mat4 {
    Mat4(Vec4(m.r0.x, m.r1.x, m.r2.x, m.r3.x),
         Vec4(m.r0.y, m.r1.y, m.r2.y, m.r3.y),
         Vec4(m.r0.z, m.r1.z, m.r2.z, m.r3.z),
         Vec4(m.r0.w, m.r1.w, m.r2.w, m.r3.w))
  }

  function MatVec4(m: Mat4, v: Vec4): Vec4 {
    Vec4(Dot4(m.r0, v), Dot4(m.r1, v), Dot4(m.r2, v), Dot4(m.r3, v))
  }

  /** Row vector times matrix, `vᵀ·m`. */
  function RowTimes4(v: Vec4, m: Mat4): Vec4 {
    Vec4(v.x * m.r0.x + v.y * m.r1.x + v.z * m.r2.x + v.w * m.r3.x,
         v.x * m.r0.y + v.y * m.r1.y + v.z * m.r2.y + v.w * m.r3.y,
         v.x * m.r0.z + v.y * m.r1.z + v.z * m.r2.z + v.w * m.r3.z,
         v.x * m.r0.w + v.y * m.r1.w + v.z * m.r2.w + v.w * m.r3.w)
  }

  /** Matrix product `a·b` (numpy's `a.dot(b)`). */
  function Mul4(a: Mat4, b: Mat4): Mat4 {
    Mat4(RowTimes4(a.r0, b), RowTimes4(a.r1, b), RowTimes4(a.r2, b), RowTimes4(a.r3, b))
  }

  predicate Symmetric4(m: Mat4) {
    Transpose4(m) == m
  }

  /** Quadratic form `hᵀ·m·h`. */
  function QuadForm4(m: Mat4, h: Vec4): real {
    Dot4(h, MatVec4(m, h))
  }

  /** `m[:3, :3]`. */
  function Block(m: Mat4): Mat3 {
    Mat3(Vec3(m.r0.x, m.r0.y, m.r0.z), Vec3(m.r1.x, m.r1.y, m.r1.z), Vec3(m.r2.x, m.r2.y, m.r2.z))
  }

  /** `m[:3, 3]`: the top three entries of the last column. */
  function LastColumnTop(m: Mat4): Vec3 {
    Vec3(m.r0.w, m.r1.w, m.r2.w)
  }

  /** `m[3, 3]`. */
  function Corner(m: Mat4): real {
    m.r3.w
  }

  lemma SumTimes4(x0: real, x1: real, x2: real, x3: real, y0: real, y1: real, y2: real, y3: real, h: real)
    ensures (x0 * y0 + x1 * y1 + x2 * y2 + x3 * y3) * h == x0 * (y0 * h) + x1 * (y1 * h) + x2 * (y2 * h) + x3 * (y3 * h)
  {
  }

  lemma TimesSum4(k: real, a0: real, a1: real, a2: real, a3: real, h0: real, h1: real, h2: real, h3: real)
    ensures k * (a0 * h0 + a1 * h1 + a2 * h2 + a3 * h3) == k * (a0 * h0) + k * (a1 * h1) + k * (a2 * h2) + k * (a3 * h3)
  {
  }

  lemma TimesSum4Inner(k: real, a0: real, a1: real, a2: real, a3: real, h0: real, h1: real, h2: real, h3: real)
    ensures k * (a0 * h0 + a1 * h1 + a2 * h2 + a3 * h3) == a0 * (k * h0) + a1 * (k * h1) + a2 * (k * h2) + a3 * (k * h3)
  {
  }

  /** `Σ r[i]·b[i][j]·h[j]`, written out row by row. */
  function RowBilinear4(r: Vec4, b: Mat4, h: Vec4): real {
    r.x * (b.r0.x * h.x) + r.x * (b.r0.y * h.y) + r.x * (b.r0.z * h.z) + r.x * (b.r0.w * h.w)
    + (r.y * (b.r1.x * h.x) + r.y * (b.r1.y * h.y) + r.y * (b.r1.z * h.z) + r.y * (b.r1.w * h.w))
    + (r.z * (b.r2.x * h.x) + r.z * (b.r2.y * h.y) + r.z * (b.r2.z * h.z) + r.z * (b.r2.w * h.w))
    + (r.w * (b.r3.x * h.x) + r.w * (b.r3.y * h.y) + r.w * (b.r3.z * h.z) + r.w * (b.r3.w * h.w))
  }

  lemma RowBilinearLeft(r: Vec4, b: Mat4, h: Vec4)
    ensures Dot4(RowTimes4(r, b), h) == RowBilinear4(r, b, h)
  {
    SumTimes4(r.x, r.y, r.z, r.w, b.r0.x, b.r1.x, b.r2.x, b.r3.x, h.x);
    SumTimes4(r.x, r.y, r.z, r.w, b.r0.y, b.r1.y, b.r2.y, b.r3.y, h.y);
    SumTimes4(r.x, r.y, r.z, r.w, b.r0.z, b.r1.z, b.r2.z, b.r3.z, h.z);
    SumTimes4(r.x, r.y, r.z, r.w, b.r0.w, b.r1.w, b.r2.w, b.r3.w, h.w);
  }

  lemma RowBilinearRight(r: Vec4, b: Mat4, h: Vec4)
    ensures Dot4(r, MatVec4(b, h)) == RowBilinear4(r, b, h)
  {
    TimesSum4(r.x, b.r0.x, b.r0.y, b.r0.z, b.r0.w, h.x, h.y, h.z, h.w);
    TimesSum4(r.y, b.r1.x, b.r1.y, b.r1.z, b.r1.w, h.x, h.y, h.z, h.w);
    TimesSum4(r.z, b.r2.x, b.r2.y, b.r2.z, b.r2.w, h.x, h.y, h.z, h.w);
    TimesSum4(r.w, b.r3.x, b.r3.y, b.r3.z, b.r3.w, h.x, h.y, h.z, h.w);
  }

  /** `(rᵀ·b)·h = rᵀ·(b·h)`. */
  lemma RowTimes4Dot(r: Vec4, b: Mat4, h: Vec4)
    ensures Dot4(RowTimes4(r, b), h) == Dot4(r, MatVec4(b, h))
  {
    RowBilinearLeft(r, b, h);
    RowBilinearRight(r, b, h);
  }

  lemma MatVec4Mul(a: Mat4, b: Mat4, h: Vec4)
    ensures MatVec4(Mul4(a, b), h) == MatVec4(a, MatVec4(b, h))
  {
    RowTimes4Dot(a.r0, b, h);
    RowTimes4Dot(a.r1, b, h);
    RowTimes4Dot(a.r2, b, h);
    RowTimes4Dot(a.r3, b, h);
  }

  /** `Σ m[j][i]·h[i]·g[j]`, written out row by row. */
  function Bilinear4(m: Mat4, h: Vec4, g: Vec4): real {
    m.r0.x * (h.x * g.x) + m.r0.y * (h.y * g.x) + m.r0.z * (h.z * g.x) + m.r0.w * (h.w * g.x)
    + (m.r1.x * (h.x * g.y) + m.r1.y * (h.y * g.y) + m.r1.z * (h.z * g.y) + m.r1.w * (h.w * g.y))
    + (m.r2.x * (h.x * g.z) + m.r2.y * (h.y * g.z) + m.r2.z * (h.z * g.z) + m.r2.w * (h.w * g.z))
    + (m.r3.x * (h.x * g.w) + m.r3.y * (h.y * g.w) + m.r3.z * (h.z * g.w) + m.r3.w * (h.w * g.w))
  }

  lemma BilinearRight(m: Mat4, h: Vec4, g: Vec4)
    ensures Dot4(MatVec4(m, h), g) == Bilinear4(m, h, g)
  {
    SumTimes4(m.r0.x, m.r0.y, m.r0.z, m.r0.w, h.x, h.y, h.z, h.w, g.x);
    SumTimes4(m.r1.x, m.r1.y, m.r1.z, m.r1.w, h.x, h.y, h.z, h.w, g.y);
    SumTimes4(m.r2.x, m.r2.y, m.r2.z, m.r2.w, h.x, h.y, h.z, h.w, g.z);
    SumTimes4(m.r3.x, m.r3.y, m.r3.z, m.r3.w, h.x, h.y, h.z, h.w, g.w);
  }

  lemma BilinearLeft(m: Mat4, h: Vec4, g: Vec4)
    ensures Dot4(h, MatVec4(Transpose4(m), g)) == Bilinear4(m, h, g)
  {
    TimesSum4Inner(h.x, m.r0.x, m.r1.x, m.r2.x, m.r3.x, g.x, g.y, g.z, g.w);
    TimesSum4Inner(h.y, m.r0.y, m.r1.y, m.r2.y, m.r3.y, g.x, g.y, g.z, g.w);
    TimesSum4Inner(h.z, m.r0.z, m.r1.z, m.r2.z, m.r3.z, g.x, g.y, g.z, g.w);
    TimesSum4Inner(h.w, m.r0.w, m.r1.w, m.r2.w, m.r3.w, g.x, g.y, g.z, g.w);
  }

  /** `hᵀ·(mᵀ·g) = (m·h)ᵀ·g`. */
  lemma Dot4Transpose(m: Mat4, h: Vec4, g: Vec4)
    ensures Dot4(h, MatVec4(Transpose4(m), g)) == Dot4(MatVec4(m, h), g)
  {
    BilinearLeft(m, h, g);
    BilinearRight(m, h, g);
  }

  /** A product is zero only when a factor is. */
  lemma ZeroProduct(s: real, t: real)
    requires s * t == 0.0
    ensures s == 0.0 || t == 0.0
  {
  }

  lemma SumSquaresPositive(a: real, b: real, c: real)
    requires a != 0.0 || b != 0.0 || c != 0.0
    ensures a * a + b * b + c * c > 0.0
  {
  }

  /** Every vector but the zero vector has a positive squared norm. */
  lemma NormSqPositive(p: Vec3)
    requires p != Zero
    ensures NormSq(p) > 0.0
  {
    assert p.x != 0.0 || p.y != 0.0 || p.z != 0.0;
    calc {
      NormSq(p);
      == p.x * p.x + p.y * p.y + p.z * p.z;
      > { SumSquaresPositive(p.x, p.y, p.z); }
      0.0;
    }
  }

  /** The non-negative square root of zero is zero. */
  lemma RootOfZero(sqrt: real -> real)
    requires IsSqrtOf(sqrt, 0.0)
    ensures sqrt(0.0) == 0.0
  {
    ZeroProduct(sqrt(0.0), sqrt(0.0));
  }

  /** A vector's norm is zero exactly at the origin. */
  lemma NormZeroIffZero(p: Vec3, sqrt: real -> real)
    requires IsSqrtOf(sqrt, NormSq(p))
    ensures Norm(p, sqrt) == 0.0 <==> p == Zero
  {
    if p != Zero {
      NormSqPositive(p);
    } else {
      assert NormSq(p) == 0.0;
      RootOfZero(sqrt);
    }
  }
}

=== FILE: pin_macros.dfy ===
/** Single-bit access to an 8-bit AVR I/O register (lab1-io/pin_macros.h).

    Each C macro `PIN_SET`, `PIN_UNSET`, `PIN_TOGGLE` assigns to its register
    argument; here each one is a pure function from the old register value to
    the new one. `PIN_READ` is a pure expression already. The C code promotes
    `1 << PIN` to `int` and truncates the result back to the 8-bit register,
    which for a pin number below 8 is exactly 8-bit bit-vector arithmetic. */
module PinMacros {

  /** A pin number of an 8-bit port. */
  type Pin = p: bv8 | p < 8

  /** `1 << PIN`: the register value with only the given pin's bit set. */
  function Mask(pin: Pin): bv8 {
    1 << pin
  }

  /** Reference reading of bit `pin` of `reg`, written independently of the
      macros: shift the bit down to position 0 and look at it. */
  predicate Bit(reg: bv8, pin: Pin) {
    (reg >> pin) & 1 == 1
  }

  /** `PIN_READ(REG, PIN)`: `(REG & (1 << PIN)) >> PIN`. */
  function Read(reg: bv8, pin: Pin): (b: bv8)
    ensures b == 0 || b == 1
    ensures b == 1 <==> Bit(reg, pin)
  {
    (reg & Mask(pin)) >> pin
  }

  /** `PIN_SET(REG, PIN)`: `REG |= (1 << PIN)`. */
  function Set(reg: bv8, pin: Pin): (r: bv8)
    ensures Bit(r, pin)
    ensures forall q: Pin :: q != pin ==> (Bit(r, q) <==> Bit(reg, q))
  {
    reg | Mask(pin)
  }

  /** `PIN_UNSET(REG, PIN)`: `REG &= ~(1 << PIN)`. */
  function Unset(reg: bv8, pin: Pin): (r: bv8)
    ensures !Bit(r, pin)
    ensures forall q: Pin :: q != pin ==> (Bit(r, q) <==> Bit(reg, q))
  {
    reg & !Mask(pin)
  }

  /** `PIN_TOGGLE(REG, PIN)`: `REG ^= (1 << PIN)`. */
  function Toggle(reg: bv8, pin: Pin): (r: bv8)
    ensures Bit(r, pin) <==> !Bit(reg, pin)
    ensures forall q: Pin :: q != pin ==> (Bit(r, q) <==> Bit(reg, q))
  {
    reg ^ Mask(pin)
  }

  /** Two register values that agree on all eight bits are equal, so the
      per-bit contracts above determine the macros completely. */
  lemma BitsDetermineRegister(a: bv8, b: bv8)
    requires forall q: Pin :: Bit(a, q) <==> Bit(b, q)
    ensures a == b
  {
    assert Bit(a, 0) <==> Bit(b, 0);
    assert Bit(a, 1) <==> Bit(b, 1);
    assert Bit(a, 2) <==> Bit(b, 2);
    assert Bit(a, 3) <==> Bit(b, 3);
    assert Bit(a, 4) <==> Bit(b, 4);
    assert Bit(a, 5) <==> Bit(b, 5);
    assert Bit(a, 6) <==> Bit(b, 6);
    assert Bit(a, 7) <==> Bit(b, 7);
  }

  /** After `PIN_SET` the pin reads 1; after `PIN_UNSET` it reads 0; after
      `PIN_TOGGLE` it reads the opposite of what it read before. */
  lemma ReadAfterWrite(reg: bv8, pin: Pin)
    ensures Read(Set(reg, pin), pin) == 1
    ensures Read(Unset(reg, pin), pin) == 0
    ensures Read(Toggle(reg, pin), pin) == 1 - Read(reg, pin)
  {
  }

  /** Toggling the same pin twice restores the register. */
  lemma ToggleTwice(reg: bv8, pin: Pin)
    ensures Toggle(Toggle(reg, pin), pin) == reg
  {
  }

  /** Setting or clearing a pin twice is the same as doing it once, and a
      clear after a set is the same as the clear alone. */
  lemma SetUnsetLaws(reg: bv8, pin: Pin)
    ensures Set(Set(reg, pin), pin) == Set(reg, pin)
    ensures Unset(Unset(reg, pin), pin) == Unset(reg, pin)
    ensures Unset(Set(reg, pin), pin) == Unset(reg, pin)
    ensures Set(Unset(reg, pin), pin) == Set(reg, pin)
  {
  }
}

=== FILE: preprocess.dfy ===
/** The per-sample transforms `assignment-1-imu/position.py` applies to the
    acceleration columns before integrating them: scaling
    (`preprocess_data`), calibration (`apply_calibration`) and gravity removal
    (`remove_gravity`). Each one rewrites `x_acc`, `y_acc`, `z_acc` and keeps
    the time and every other column. */
module Preprocessing {
  import opened LinAlg
  import opened Wrappers
  import opened Samples
  import opened Stats
  import Calibration

  // ---------------------------------------------------------------------
  // Scaling

  /** `preprocess_data`: the acceleration columns multiplied by `factor`.
      A factor of exactly 1.0 skips the multiplication, which changes
      nothing. */
  function PreprocessData(data: seq<Sample>, factor: real): (r: seq<Sample>)
    ensures |r| == |data|
    ensures forall i :: 0 <= i < |data| ==>
      r[i].t == data[i].t && r[i].other == data[i].other && r[i].acc == Scale(factor, data[i].acc)
  {
    if factor != 1.0 then MapAcc(data, a => Scale(factor, a))
    else
      assert forall i :: 0 <= i < |data| ==> Scale(factor, data[i].acc) == data[i].acc;
      data
  }

  /** The multiplier 1.0 returns the table as it was. */
  lemma PreprocessUnitFactor(data: seq<Sample>)
    ensures PreprocessData(data, 1.0) == data
  {
  }

  lemma ScaleInverse(f: real, a: Vec3)
    requires f != 0.0
    ensures Scale(1.0 / f, Scale(f, a)) == a
  {
    assert (1.0 / f) * (f * a.x) == a.x;
    assert (1.0 / f) * (f * a.y) == a.y;
    assert (1.0 / f) * (f * a.z) == a.z;
  }

  /** Scaling by `f` and then by `1/f` restores the table. */
  lemma PreprocessInverse(data: seq<Sample>, f: real)
    requires f != 0.0
    ensures PreprocessData(PreprocessData(data, f), 1.0 / f) == data
  {
    var r := PreprocessData(PreprocessData(data, f), 1.0 / f);
    forall i | 0 <= i < |data|
      ensures r[i] == data[i]
    {
      ScaleInverse(f, data[i].acc);
    }
  }

  // ---------------------------------------------------------------------
  // Calibration

  /** m/s² to g: `acc_data / 9.81`. */
  function ToG(a: Vec3): Vec3 {
    Divide(a, StandardGravity)
  }

  /** g to m/s²: `calibrated_data * 9.81`. */
  function ToMps2(a: Vec3): Vec3 {
    Scale(StandardGravity, a)
  }

  /** The unit conversions are inverse to each other. */
  lemma UnitsRoundTrip(a: Vec3)
    ensures ToMps2(ToG(a)) == a
    ensures ToG(ToMps2(a)) == a
  {
  }

  /** One reading through `apply_calibration`'s loop body: in g the affine
      map `T·(a − bias)`; with m/s² input the reading is converted to g
      first and the result back to m/s². */
  function CalibrateReading(rec: Calibration.CalibrationRecord, unitsInMps2: bool, a: Vec3): Vec3 {
    if unitsInMps2 then ToMps2(MatVec(rec.transform, Sub(ToG(a), rec.bias)))
    else MatVec(rec.transform, Sub(a, rec.bias))
  }

  /** `apply_calibration`: without parameters the data comes back as it
      was; with them every acceleration is calibrated and the time and the
      other columns are kept. The flag is the module-level `UNITS_IN_MPS2`. */
  function ApplyCalibration(data: seq<Sample>, cal: Option<Calibration.CalibrationRecord>, unitsInMps2: bool): (r: seq<Sample>)
    ensures |r| == |data|
    ensures forall i :: 0 <= i < |data| ==> r[i].t == data[i].t && r[i].other == data[i].other
    ensures cal.None? ==> r == data
    ensures cal.Some? ==> forall i :: 0 <= i < |data| ==>
      r[i].acc == CalibrateReading(cal.value, unitsInMps2, data[i].acc)
  {
    match cal
    case None => data
    case Some(rec) => MapAcc(data, a => CalibrateReading(rec, unitsInMps2, a))
  }

  /** In g, a reading goes through exactly the map that
      `calibrate_accelerometer` applied to the fitting points. */
  lemma CalibrationInGIsFitMap(rec: Calibration.CalibrationRecord, a: Vec3)
    ensures CalibrateReading(rec, false, a) == Calibration.CalibratePoint(rec.transform, rec.bias, a)
  {
  }

  lemma ConvertedOffset(a: Vec3, bias: Vec3)
    ensures ToMps2(Sub(ToG(a), bias)) == Sub(a, ToMps2(bias))
  {
  }

  /** The unit round trip amounts to calibrating the m/s² reading directly
      with the bias converted to m/s²: `9.81·T·(a/9.81 − b) = T·(a − 9.81·b)`. */
  lemma CalibrationInMps2(rec: Calibration.CalibrationRecord, a: Vec3)
    ensures CalibrateReading(rec, true, a) == MatVec(rec.transform, Sub(a, ToMps2(rec.bias)))
  {
    var y := Sub(ToG(a), rec.bias);
    MatVecLinear(StandardGravity, rec.transform, y);
    ConvertedOffset(a, rec.bias);
  }

  /** A calibration with the identity transform and no bias leaves every
      reading as it was, in either unit. */
  lemma IdentityCalibration(rec: Calibration.CalibrationRecord, unitsInMps2: bool, a: Vec3)
    requires rec.transform == Identity3 && rec.bias == Zero
    ensures CalibrateReading(rec, unitsInMps2, a) == a
  {
    if unitsInMps2 {
      IdentityCalibrationMps2(rec, a);
    } else {
      IdentityCalibrationG(rec, a);
    }
  }

  lemma IdentityCalibrationG(rec: Calibration.CalibrationRecord, a: Vec3)
    requires rec.transform == Identity3 && rec.bias == Zero
    ensures CalibrateReading(rec, false, a) == a
  {
    Vec3Ext(Sub(a, rec.bias), a);
    IdentityMatVec(a);
  }

  lemma IdentityCalibrationMps2(rec: Calibration.CalibrationRecord, a: Vec3)
    requires rec.transform == Identity3 && rec.bias == Zero
    ensures CalibrateReading(rec, true, a) == a
  {
    var bias := ToMps2(rec.bias);
    assert Sub(a, bias) == a by {
      Vec3Ext(ToMps2(Zero), Zero);
      Vec3Ext(Sub(a, bias), a);
    }
    CalibrationInMps2(rec, a);
    IdentityMatVec(a);
  }


  // ---------------------------------------------------------------------
  // Gravity removal

  /** How many leading samples `remove_gravity` averages (`data.iloc[:10]`). */
  const GravityWindow: nat := 10

  /** `data.iloc[:10]`: the first ten rows, or all of them when there are
      fewer. */
  function InitialSamples(data: seq<Sample>): (r: seq<Sample>)
    ensures |r| == if |data| < GravityWindow then |data| else GravityWindow
    ensures r <= data
  {
    if |data| < GravityWindow then data else data[..GravityWindow]
  }

  /** `mean_acc`: the column means of the initial samples. */
  function GravityMean(data: seq<Sample>): Vec3
    requires |data| > 0
  {
    MeanVec(Accelerations(InitialSamples(data)))
  }

  /** `gravity_magnitude`. */
  function GravityMagnitude(data: seq<Sample>, sqrt: real -> real): real
    requires |data| > 0
  {
    Norm(GravityMean(data), sqrt)
  }

  /** Dividing a vector by its length gives a unit vector. */
  lemma UnitDirection(v: Vec3, m: real)
    requires m != 0.0 && m * m == NormSq(v)
    ensures NormSq(Divide(v, m)) == 1.0
  {
    var d := Divide(v, m);
    assert d.x * d.x * (m * m) == v.x * v.x by { QuotientSquare(v.x, m); }
    assert d.y * d.y * (m * m) == v.y * v.y by { QuotientSquare(v.y, m); }
    assert d.z * d.z * (m * m) == v.z * v.z by { QuotientSquare(v.z, m); }
    calc {
      NormSq(d) * (m * m);
      == NormSq(v);
      == m * m;
    }
    OneFromProduct(NormSq(d), m);
  }

  lemma OneFromProduct(x: real, m: real)
    requires m != 0.0 && x * (m * m) == m * m
    ensures x == 1.0
  {
  }

  lemma QuotientSquare(a: real, m: real)
    requires m != 0.0
    ensures (a / m) * (a / m) * (m * m) == a * a
  {
    var q := a / m;
    assert q * m == a;
    assert q * q * (m * m) == (q * m) * (q * m);
  }

  /** `gravity_direction = mean_acc / gravity_magnitude`: a unit vector
      wherever `sqrt` is the square root. */
  function GravityDirection(data: seq<Sample>, sqrt: real -> real): (g: Vec3)
    requires |data| > 0 && GravityMagnitude(data, sqrt) != 0.0
    ensures IsSqrtOf(sqrt, NormSq(GravityMean(data))) ==> NormSq(g) == 1.0
  {
    var m := GravityMagnitude(data, sqrt);
    assert IsSqrtOf(sqrt, NormSq(GravityMean(data))) ==> NormSq(Divide(GravityMean(data), m)) == 1.0 by {
      if IsSqrtOf(sqrt, NormSq(GravityMean(data))) { UnitDirection(GravityMean(data), m); }
    }
    Divide(GravityMean(data), m)
  }

  /** One reading with its component along `g` subtracted:
      `a − (a·g)·g`. */
  function RemoveComponent(a: Vec3, g: Vec3): Vec3 {
    Sub(a, Scale(Dot(a, g), g))
  }

  /** What was subtracted added back gives the reading. */
  lemma RemoveComponentSplits(a: Vec3, g: Vec3)
    ensures Add(RemoveComponent(a, g), Scale(Dot(a, g), g)) == a
  {
  }

  /** Along a unit `g`, the remainder has no component left. */
  lemma RemoveComponentOrthogonal(a: Vec3, g: Vec3)
    requires NormSq(g) == 1.0
    ensures Dot(RemoveComponent(a, g), g) == 0.0
  {
    var k := Dot(a, g);
    assert Dot(Scale(k, g), g) == k * NormSq(g) by { DotScale(k, g, g); }
    assert Dot(RemoveComponent(a, g), g) == k - Dot(Scale(k, g), g);
  }

  /** Subtracting the component along a unit `g` a second time changes
      nothing. */
  lemma RemoveComponentIdempotent(a: Vec3, g: Vec3)
    requires NormSq(g) == 1.0
    ensures RemoveComponent(RemoveComponent(a, g), g) == RemoveComponent(a, g)
  {
    var r := RemoveComponent(a, g);
    RemoveComponentOrthogonal(a, g);
    ZeroScale(Dot(r, g), g);
  }

  /** `remove_gravity`: every reading loses its component along the
      estimated gravity direction; time and the other columns are kept. An
      empty table is returned empty (the loop body never runs). Where `sqrt`
      is the square root, every result is orthogonal to the direction. */
  function RemoveGravity(data: seq<Sample>, sqrt: real -> real): (r: seq<Sample>)
    requires |data| > 0 ==> GravityMagnitude(data, sqrt) != 0.0
    ensures |r| == |data|
    ensures forall i :: 0 <= i < |data| ==> r[i].t == data[i].t && r[i].other == data[i].other
    ensures |data| > 0 ==> forall i :: 0 <= i < |data| ==>
      Add(r[i].acc, Scale(Dot(data[i].acc, GravityDirection(data, sqrt)), GravityDirection(data, sqrt))) == data[i].acc
    ensures |data| > 0 && IsSqrtOf(sqrt, NormSq(GravityMean(data))) ==>
      forall i :: 0 <= i < |data| ==> Dot(r[i].acc, GravityDirection(data, sqrt)) == 0.0
  {
    if |data| == 0 then data
    else
      var g := GravityDirection(data, sqrt);
      var r := MapAcc(data, a => RemoveComponent(a, g));
      assert forall i :: 0 <= i < |data| ==> Add(r[i].acc, Scale(Dot(data[i].acc, g), g)) == data[i].acc by {
        forall i | 0 <= i < |data| { RemoveComponentSplits(data[i].acc, g); }
      }
      assert IsSqrtOf(sqrt, NormSq(GravityMean(data))) ==>
        forall i :: 0 <= i < |data| ==> Dot(r[i].acc, g) == 0.0 by {
        if IsSqrtOf(sqrt, NormSq(GravityMean(data))) {
          forall i | 0 <= i < |data| { RemoveComponentOrthogonal(data[i].acc, g); }
        }
      }
      r
  }

  /** Removing the component along the same gravity direction again leaves
      the result of `remove_gravity` unchanged. */
  lemma RemoveGravityIdempotent(data: seq<Sample>, sqrt: real -> real)
    requires |data| > 0 && GravityMagnitude(data, sqrt) != 0.0
    requires IsSqrtOf(sqrt, NormSq(GravityMean(data)))
    ensures
      var g := GravityDirection(data, sqrt);
      var r := RemoveGravity(data, sqrt);
      MapAcc(r, a => RemoveComponent(a, g)) == r
  {
    var g := GravityDirection(data, sqrt);
    var r := RemoveGravity(data, sqrt);
    var rr := MapAcc(r, a => RemoveComponent(a, g));
    forall i | 0 <= i < |r|
      ensures rr[i] == r[i]
    {
      RemoveComponentIdempotent(data[i].acc, g);
    }
  }
}

=== FILE: samples.dfy ===
/** The time-series table the motion pipeline works on (one row per reading
    of the CSV file `assignment-1-imu/position.py` loads). */
module Samples {
  import opened LinAlg

  /** Standard gravity in m/s² per g, the constant the code uses for both unit
      conversions. */
  const StandardGravity: real := 9.81

  /** One row: `seconds_elapsed`, the acceleration columns `x_acc`, `y_acc`,
      `z_acc`, and every further column (the gyroscope readings), which the
      pipeline carries along untouched. */
  datatype Sample = Sample(t: real, acc: Vec3, other: seq<real>)

  /** The `seconds_elapsed` column. */
  function Times(data: seq<Sample>): (ts: seq<real>)
    ensures |ts| == |data|
    ensures forall i :: 0 <= i < |data| ==> ts[i] == data[i].t
  {
    seq(|data|, i requires 0 <= i < |data| => data[i].t)
  }

  /** The three acceleration columns, one vector per row. */
  function Accelerations(data: seq<Sample>): (accs: seq<Vec3>)
    ensures |accs| == |data|
    ensures forall i :: 0 <= i < |data| ==> accs[i] == data[i].acc
  {
    seq(|data|, i requires 0 <= i < |data| => data[i].acc)
  }

  /** The table with each row's acceleration replaced by `f` of it and every
      other column kept. */
  function MapAcc(data: seq<Sample>, f: Vec3 -> Vec3): (r: seq<Sample>)
    ensures |r| == |data|
    ensures forall i :: 0 <= i < |data| ==>
      r[i].t == data[i].t && r[i].other == data[i].other && r[i].acc == f(data[i].acc)
  {
    seq(|data|, i requires 0 <= i < |data| => data[i].(acc := f(data[i].acc)))
  }
}

=== FILE: stationary.dfy ===
/** `detect_stationary_periods` in `assignment-1-imu/position.py`: a sample
    is stationary when the rolling variance of the acceleration magnitude
    ending at it is below a threshold. */
module Stationary {
  import opened LinAlg
  import opened Stats

  /** pandas `rolling(window=w).var().fillna(0)` at index `i`: the variance
      with denominator `w − 1` of the `w` values ending at `i`. Where pandas
      has no value (fewer than `w` values so far, or a window of zero or one
      value, whose `n − 1` variance is undefined) the NaN becomes 0. */
  function RollingVariance(xs: seq<real>, w: nat, i: nat): (v: real)
    requires i < |xs|
    ensures 0.0 <= v
  {
    if 2 <= w && w <= i + 1 then SampleVariance(xs[i + 1 - w .. i + 1]) else 0.0
  }

  /** `acc_mag` and the flags: `rolling_var < threshold`, one per sample. */
  function DetectStationary(accs: seq<Vec3>, threshold: real, w: nat, sqrt: real -> real): (flags: seq<bool>)
    ensures |flags| == |accs|
    ensures forall i :: 0 <= i < |accs| ==>
      (flags[i] <==> RollingVariance(Magnitudes(accs, sqrt), w, i) < threshold)
  {
    var mags := Magnitudes(accs, sqrt);
    seq(|accs|, i requires 0 <= i < |accs| => RollingVariance(mags, w, i) < threshold)
  }

  /** Before a full window has been seen (and for every sample when the
      window holds fewer than two values) the variance is the filled-in 0,
      so the sample is stationary exactly when the threshold is positive. */
  lemma EarlySamples(accs: seq<Vec3>, threshold: real, w: nat, sqrt: real -> real, i: nat)
    requires i < |accs| && (i + 1 < w || w < 2)
    ensures DetectStationary(accs, threshold, w, sqrt)[i] <==> 0.0 < threshold
  {
  }

  /** From index `w − 1` on, a sample is stationary exactly when the
      `(n − 1)`-denominator variance of the last `w` magnitudes is below the
      threshold. */
  lemma FullWindowSamples(accs: seq<Vec3>, threshold: real, w: nat, sqrt: real -> real, i: nat)
    requires i < |accs| && 2 <= w <= i + 1
    ensures DetectStationary(accs, threshold, w, sqrt)[i] <==>
      SampleVariance(Magnitudes(accs, sqrt)[i + 1 - w .. i + 1]) < threshold
  {
  }

  /** A variance is never negative, so with a threshold of zero or less no
      sample is stationary. */
  lemma NonPositiveThresholdNeverStationary(accs: seq<Vec3>, threshold: real, w: nat, sqrt: real -> real)
    requires threshold <= 0.0
    ensures forall i :: 0 <= i < |accs| ==> !DetectStationary(accs, threshold, w, sqrt)[i]
  {
  }

  /** Raising the threshold keeps every stationary sample stationary. */
  lemma ThresholdMonotone(accs: seq<Vec3>, t1: real, t2: real, w: nat, sqrt: real -> real)
    requires t1 <= t2
    ensures forall i :: 0 <= i < |accs| && DetectStationary(accs, t1, w, sqrt)[i] ==>
      DetectStationary(accs, t2, w, sqrt)[i]
  {
  }

  /** A sensor whose readings do not change is stationary everywhere as
      soon as the threshold is positive: every window has variance 0. */
  lemma {:induction false} ConstantReadingsAreStationary(accs: seq<Vec3>, threshold: real, w: nat, sqrt: real -> real)
    requires forall i :: 0 <= i < |accs| ==> accs[i] == accs[0]
    requires 0.0 < threshold
    ensures forall i :: 0 <= i < |accs| ==> DetectStationary(accs, threshold, w, sqrt)[i]
  {
    var mags := Magnitudes(accs, sqrt);
    forall i | 0 <= i < |accs|
      ensures RollingVariance(mags, w, i) == 0.0
    {
      if 2 <= w && w <= i + 1 {
        var win := mags[i + 1 - w .. i + 1];
        assert forall j :: 0 <= j < |win| ==> win[j] == win[0];
      }
    }
  }
}

=== FILE: stats.dfy ===
/** Column statistics the pipeline takes over a series of reals: pandas and
    numpy `sum`, `mean`, `var` (with its denominator choice) and `std`. */
module Stats {
  import opened LinAlg

  function Sum(xs: seq<real>): real
    decreases |xs|
  {
    if |xs| == 0 then 0.0 else xs[0] + Sum(xs[1..])
  }

  function Mean(xs: seq<real>): real
    requires |xs| > 0
  {
    Sum(xs) / |xs| as real
  }

  /** `Σ (x − m)²` over the series. */
  function SquaredDeviations(xs: seq<real>, m: real): (r: real)
    ensures 0.0 <= r
    decreases |xs|
  {
    if |xs| == 0 then 0.0
    else
      var d := xs[0] - m;
      assert 0.0 <= d * d by { if d < 0.0 { assert d * d == (-d) * (-d); } }
      d * d + SquaredDeviations(xs[1..], m)
  }

  /** pandas `var()`: the unbiased variance with denominator `n − 1`. */
  function SampleVariance(xs: seq<real>): (r: real)
    requires |xs| >= 2
    ensures 0.0 <= r
    ensures (forall i :: 0 <= i < |xs| ==> xs[i] == xs[0]) ==> r == 0.0
  {
    ConstantNoDeviation(xs);
    SquaredDeviations(xs, Mean(xs)) / (|xs| - 1) as real
  }

  /** numpy `var()`: the population variance with denominator `n`. */
  function PopulationVariance(xs: seq<real>): (r: real)
    requires |xs| >= 1
    ensures 0.0 <= r
    ensures (forall i :: 0 <= i < |xs| ==> xs[i] == xs[0]) ==> r == 0.0
  {
    ConstantNoDeviation(xs);
    SquaredDeviations(xs, Mean(xs)) / |xs| as real
  }

  /** numpy `std()`: the square root of the population variance. */
  function StandardDeviation(xs: seq<real>, sqrt: real -> real): real
    requires |xs| >= 1
  {
    sqrt(PopulationVariance(xs))
  }

  /** A constant series has that constant as its sum per element, its mean,
      and no deviation from it. */
  lemma {:induction false} ConstantSeries(xs: seq<real>, c: real)
    requires forall i :: 0 <= i < |xs| ==> xs[i] == c
    ensures Sum(xs) == |xs| as real * c
    ensures |xs| > 0 ==> Mean(xs) == c
    ensures SquaredDeviations(xs, c) == 0.0
    decreases |xs|
  {
    if |xs| > 0 {
      ConstantSeries(xs[1..], c);
    }
  }

  /** A series whose values are all equal has no deviation from its mean. */
  lemma ConstantNoDeviation(xs: seq<real>)
    requires |xs| > 0
    ensures (forall i :: 0 <= i < |xs| ==> xs[i] == xs[0]) ==> SquaredDeviations(xs, Mean(xs)) == 0.0
  {
    if forall i :: 0 <= i < |xs| ==> xs[i] == xs[0] {
      ConstantSeries(xs, xs[0]);
    }
  }

  /** The `i`-th coordinate of every vector in a series. */
  function XColumn(vs: seq<Vec3>): seq<real> { seq(|vs|, i requires 0 <= i < |vs| => vs[i].x) }
  function YColumn(vs: seq<Vec3>): seq<real> { seq(|vs|, i requires 0 <= i < |vs| => vs[i].y) }
  function ZColumn(vs: seq<Vec3>): seq<real> { seq(|vs|, i requires 0 <= i < |vs| => vs[i].z) }

  /** Column-wise mean of a series of 3-vectors (a DataFrame's `.mean()`). */
  function MeanVec(vs: seq<Vec3>): (m: Vec3)
    requires |vs| > 0
    ensures (forall i :: 0 <= i < |vs| ==> vs[i] == vs[0]) ==> m == vs[0]
  {
    ConstantColumns(vs);
    Vec3(Mean(XColumn(vs)), Mean(YColumn(vs)), Mean(ZColumn(vs)))
  }

  /** A series of identical vectors has each coordinate as its column mean. */
  lemma ConstantColumns(vs: seq<Vec3>)
    requires |vs| > 0
    ensures (forall i :: 0 <= i < |vs| ==> vs[i] == vs[0]) ==>
      Mean(XColumn(vs)) == vs[0].x && Mean(YColumn(vs)) == vs[0].y && Mean(ZColumn(vs)) == vs[0].z
  {
    if forall i :: 0 <= i < |vs| ==> vs[i] == vs[0] {
      ConstantSeries(XColumn(vs), vs[0].x);
      ConstantSeries(YColumn(vs), vs[0].y);
      ConstantSeries(ZColumn(vs), vs[0].z);
    }
  }
}

=== FILE: wrappers.dfy ===
/** The optional-value type: Python's `None` versus a present value. */
module Wrappers {

  datatype Option<+T> = None | Some(value: T)
}
